=== FILE: README.md ===
# samsung-cac `Connection` client, modelled in Dafny

A model of the protocol client in `src/index.ts` of samsung-cac, which talks to
a Samsung MIM-H02 air-conditioner controller over TLS with one XML document per
line. The model covers:

- the device state and its attribute merge (`DeviceState.parseAttrs`, `Device`);
- `LiteEvent`, the subscriber list behind the `DeviceUpdated` event;
- the socket's `data` handler:
  - the line framer, which appends a chunk, cuts at each `"\n"`, trims, and
    keeps only lines starting with `<`;
  - the classifier, which routes each decoded line to the `connect`
    handshake, the pending resolve or reject, a device update, or nowhere;
- the request operations (`send`, `getToken`, `login`, `deviceList`,
  `deviceState`, `controlDevice`, `disconnect`), plus `findDevice` and the
  `deviceList` and `deviceState` continuations that use the device registry.

The modules are:

- `Devices` (`devices.dfy`):
  - the six state fields as a value (`StateFields`);
  - the merge as a function on that value (`Merge`), with its rules proved as lemmas;
  - the classes `DeviceState`, whose `ParseAttrs` loop is proved to compute
    `Merge`, and `Device`.
- `Events` (`events.dfy`): the class `LiteEvent`. Handlers are identifiers, and
  `Trigger` returns the identifiers it calls, in order.
- `Framing` (`framing.dfy`):
  - `String.prototype.trim`, `startsWith("<")`;
  - the raw lines a buffer is cut into (`SplitLines`);
  - the frames that reach the decoder (`Frames`);
  - lemmas: nothing is lost, no newline stays buffered, and two deliveries
    behave like one.
- `Messages` (`messages.dfy`):
  - the outbound requests and the decoded inbound documents, as tagged values;
  - the attribute list of a control request (`ControlAttrs`).
- `Sessions` (`sessions.dfy`): the protocol state of a connection as a value
  (`Session`). It holds:
  - the handshake flag;
  - the pending slot, identified by the number of the `send` that filled it;
  - the registry, as values;
  - the current subscribers;
  - a ghost log of effects: `connect` resolved, a request resolved or
    rejected, `DeviceUpdated` fired.

  It defines the parse callback (`Receive`) and the whole `while` loop of the
  `data` handler (`Drain`), and proves the routing, handshake, update and
  buffering rules about them.
- `Client` (`connection.dfy`): the class `Connection`, with the source's fields.
  Each method that handles inbound traffic or a reply (`OnData`, its loop and
  callback, `deviceList` and `deviceState` continuations) is proved to do to
  `Abstract()`, the `Session` its fields describe, exactly what module
  `Sessions` says. For example, `OnData` is proved to yield exactly the
  buffer, state and outcome that `Drain` gives on the old buffer plus the
  chunk. The request methods (`Send` and the five that wrap it) and
  `Connect`/`Disconnect` are specified directly on the fields: what is
  written, how the pending slot and the send counter change, and that
  nothing changes without a socket.

Modelling choices:

- **The XML library is a parameter.** `xml2js.parseString` and the XML builder
  are the constants `decode` and `encode` of a `Connection`. The model
  assumes that the parse callback runs synchronously, before the loop's next
  turn.
- **A throw inside the `data` handler is a fault.** Such a `TypeError` comes
  from an update about a device when no device list has been fetched
  (`this.devices!`), from an update without `Status`, or from an update about
  a registered device whose `Status` has no `Attr` child (`.Attr.map` on an
  absent key, src/index.ts:199). `Receive` then returns `None`, `Drain`
  returns `false`, and the lines after the failing one stay buffered, as they
  do in the source. The same missing `Attr` in a `deviceState` reply about a
  registered device makes that continuation throw (src/index.ts:309), so its
  promise never settles. In Node, a throw out of the socket's `data` listener
  is an uncaught exception, which ends the process unless the host handles
  `uncaughtException`. Calls to `OnData` after one that returned `false`
  describe such a host, one that keeps the process and the connection alive.
- **Promises are not modelled.** What a promise would deliver is recorded in
  the effect log. Each continuation that can throw (`deviceList`,
  `deviceState`) returns a `Settled` value; `NeverSettles` is the throw.

Behaviour of the code worth knowing:

- **Reconnecting.** Only the handshake flag is fresh for each `connect`
  (src/index.ts:170). The pending slot and the buffer carry over.
- **A second `InvalidateAccount`.** It is not ignored: it goes down the
  device-update branch like any other update (src/index.ts:187-196).
- **`findDevice` before any device list.** It throws; it does not return
  "not found" (src/index.ts:292).
- **Unknown device in a `deviceState` reply.** The rejection reads
  `"Unknown device: "` followed by the identifier taken from the reply, not
  the one that was asked for (src/index.ts:314).
- **Duplicate identifiers.** The registry is not kept free of them; lookups
  take the first match.
- **`controlDevice` options.** Options are tested for truthiness, so an empty
  string or a zero temperature is left out of the request
  (src/index.ts:325-339).
- **`disconnect` leaves the socket open.** It only drops the reference; the
  call that would close the socket is commented out (src/index.ts:153-158).
  The old socket's `data` handler keeps running, so `OnData` does not require
  a socket.
- **A decode error reaches no caller.** It rejects the promise `send`
  returns. But `getToken`, `login`, `deviceList`, `deviceState` and
  `controlDevice` attach only a `.then` to that promise (src/index.ts:250,
  265, 284, 306, 356), so their own promises never settle. A
  `RequestRejected` entry in the effect log is a rejection nobody observes.

## Model

| member | source | states |
|---|---|---|
| `Seqs.IndexOf` | src/index.ts:175 | `indexOf`: the result is -1 or a position in the sequence, and a non-negative result points at an occurrence |
| `Seqs.IndexOfFirst` | src/index.ts:175 | `indexOf` gives the first occurrence, and -1 only when there is none |
| `Numbers.ParseNumber` | src/index.ts:77-79 | `Number(s)` for integer text: the empty string is 0, an optionally signed run of decimal digits is that integer, anything else NaN (definition; its round trip is `ParseToDecimal`) |
| `Numbers.ToDecimal` | src/index.ts:331-332 | how the builder writes an integer set point: a minus sign for negatives, then the digits without leading zeros (definition) |
| `Numbers.ParseToDecimal` | src/index.ts:79 | reading back the decimal rendering of an integer with `Number` gives that integer |
| `Devices.Apply` | src/index.ts:75-88 | one turn of the `parseAttrs` loop: the `if`/`else if` chain on `ID`, with `AC_FUN_TEMPNOW` less 55 and `AC_FUN_TEMPSET` through `Number` (definition; `ApplyGet` proves its field-by-field effect) |
| `Devices.Merge` | src/index.ts:72-90 | the fields after `parseAttrs(attrs)`: the attributes applied in list order (definition; `MergeGet` and `MergeAppend` prove last-occurrence-wins) |
| `Devices.ApplyGet` | src/index.ts:76-88 | one attribute sets exactly the field its `ID` names, converted as stored, and leaves every other field alone |
| `Devices.MergeGet` | src/index.ts:72-90 | after `parseAttrs`, each field holds the value of the last attribute carrying its `ID`; a field whose `ID` does not occur keeps its old value |
| `Devices.MergeUnknown` | src/index.ts:72-90 | attributes whose `ID` is none of the six change nothing |
| `Devices.MergeAppend` | src/index.ts:73 | merging `a` then `b` is merging `a + b` |
| `Devices.MergeIgnoresKind` | src/index.ts:72-90 | the merge depends only on `ID` and `Value`, never on `Type` |
| `Devices.FieldsDetermineState` | src/index.ts:64-70 | two states that agree on the six fields are equal |
| `Devices.TemperatureConversion` | src/index.ts:76-79 | a reported current temperature t is stored as t - 55; a set point t is stored unconverted |
| `Devices.DeviceState.constructor` | src/index.ts:64-70 | a new state has all six fields unset |
| `Devices.DeviceState.ParseAttrs` | src/index.ts:72-90 | the loop leaves the fields equal to `Merge` of the old fields and the attributes |
| `Devices.Device.constructor` | src/index.ts:107-112 | the identity is as given, and the state object is new with all fields unset |
| `Events.Without` | src/index.ts:29 | `filter` removes every occurrence of the handler and keeps every other handler with its multiplicity |
| `Events.WithoutAppend` | src/index.ts:29 | filtering keeps the relative order: filtering a concatenation filters each part |
| `Events.WithoutAbsent` | src/index.ts:29 | unsubscribing a handler that is not subscribed changes nothing |
| `Events.OnThenOff` | src/index.ts:24-30 | `off(h)` after `on(h)` gives what `off(h)` alone gives, which is the old list when `h` was not subscribed |
| `Events.LiteEvent.constructor` | src/index.ts:22 | a new event has no subscribers |
| `Events.LiteEvent.On` | src/index.ts:24-26 | appends the handler after every existing one, duplicates allowed |
| `Events.LiteEvent.Off` | src/index.ts:28-30 | the list becomes the old list without any occurrence of the handler |
| `Events.LiteEvent.Trigger` | src/index.ts:32-34 | calls exactly the current subscribers, in subscription order |
| `Framing.TrimStart` | src/index.ts:176 | drops leading ECMAScript white space (definition; see `TrimStartSpec`) |
| `Framing.TrimEnd` | src/index.ts:176 | drops trailing ECMAScript white space (definition; see `TrimEndSpec`) |
| `Framing.Trim` | src/index.ts:176 | `trim()`: both ends (definition) |
| `Framing.IsFrame` | src/index.ts:179 | `line.startsWith("<")` (definition) |
| `Framing.SplitLines` | src/index.ts:175-177 | the raw lines the loop cuts at each `"\n"`, in order, and what stays buffered (definition; see `SplitLinesConcat`, `SplitLinesRest`, `SplitLinesRaw`) |
| `Framing.Frames` | src/index.ts:176-179 | the trimmed raw lines that reach the decoder, in order (definition; see `FramesAreFrames`, `FramesAppend`) |
| `Framing.TrimStartSpec` | src/index.ts:176 | the trimmed line is a suffix; everything dropped is white space, and the result does not start with white space |
| `Framing.TrimEndSpec` | src/index.ts:176 | the trimmed line is a prefix; everything dropped is white space, and the result does not end with white space |
| `Framing.SplitLinesConcat` | src/index.ts:175-177 | the cut lines followed by what stays buffered are exactly the buffer |
| `Framing.SplitLinesRest` | src/index.ts:175 | what stays buffered contains no newline |
| `Framing.SplitLinesRaw` | src/index.ts:176-177 | every cut line ends with its only newline |
| `Framing.FrameOf` | src/index.ts:176-179 | a raw line contributes at most one frame to the decoder |
| `Framing.FramesAreFrames` | src/index.ts:179 | only trimmed lines starting with `<` reach the decoder, at most one per raw line |
| `Framing.FramesAppend` | src/index.ts:175-179 | the frames of consecutive raw lines are the frames of each part, in order |
| `Framing.SplitLinesInPieces` | src/index.ts:172-177 | delivering `a` and then `b` cuts the same lines, in order, and leaves the same remainder as delivering `a + b` |
| `Framing.FramesInPieces` | src/index.ts:172-179 | delivering `a` and then `b` hands the decoder the same frames, in order, as delivering `a + b` |
| `Messages.Requested` | src/index.ts:325-339 | the value each `if (options.x)` pushes for its attribute, or none when the option is falsy (definition) |
| `Messages.Collect` | src/index.ts:325-339 | the conditional pushes in order (definition; see `CollectSound`, `CollectComplete`, `CollectOrdered`) |
| `Messages.CollectSound` | src/index.ts:325-339 | every pushed attribute is one of the listed identifiers, with the requested value |
| `Messages.CollectComplete` | src/index.ts:325-339 | every listed identifier whose option is truthy is pushed |
| `Messages.CollectOrdered` | src/index.ts:325-339 | the pushes keep the order of the identifiers |
| `Messages.ControlAttrs` | src/index.ts:323-339 | the attribute list holds exactly the truthy options, each with its value, in the order POWER, OPMODE, TEMPSET, WINDLEVEL, FAN |
| `Messages.ControlRequest` | src/index.ts:341-354 | a control request always carries command id `cmd00000` and the given device |
| `Messages.ControlEcho` | src/index.ts:321-339 | a device reporting back the control request's attributes has exactly the requested fields changed, to the requested values |
| `Messages.ControlEchoTemperature` | src/index.ts:331-332 | a non-zero set point is echoed into the target temperature, while 0 or none leaves it alone |
| `Sessions.Reject` | src/index.ts:182-184 | a parse error is handed to the pending reject, when there is one (definition) |
| `Sessions.Resolve` | src/index.ts:191-193 | a document is handed to the pending resolve, when there is one (definition) |
| `Sessions.FreshViews` | src/index.ts:285 | one registry entry per descriptor, all fields unset (definition; see `DeviceListRebuilds`) |
| `Sessions.Find` | src/index.ts:291-293 | the index of the first registry entry with that identifier, or -1 when no entry has it |
| `Sessions.ApplyStatus` | src/index.ts:198-202 | merging one device's status keeps the registry's length |
| `Sessions.Receive` | src/index.ts:180-212 | the parse callback on one decoded line, `None` when it throws (definition; see `ReceiveFacts`, `Routing`, `Handshake`, `UnsolicitedUpdate`) |
| `Sessions.ReceiveAll` | src/index.ts:175-215 | the callbacks on a run of frames, stopping at the first throw (definition) |
| `Sessions.Drain` | src/index.ts:175-215 | the `while` loop: what stays buffered, the new state, and whether it ran to its end (definition; see `TurnDrain`, `DrainDispatchesFrames`, `DrainInPieces`) |
| `Sessions.ReceiveFacts` | src/index.ts:180-212 | with subscribers that do not re-enter the connection, the parse callback never changes the pending slot or the subscribers, adds at most one effect, keeps the registry's identities, and sets the flag exactly on `InvalidateAccount` |
| `Sessions.AnswerDeviceState` | src/index.ts:306-316 | a resolved `deviceState` resolves with the first registry entry carrying the reply's own identifier; a reply that rejects or never settles leaves the protocol state unchanged |
| `Sessions.AnswerDeviceList` | src/index.ts:284-287 | a device-list reply installs a registry and fires nothing |
| `Sessions.Routing` | src/index.ts:181-211 | decode error goes to the pending reject; `GetToken` update and non-`GetToken` response go to the pending resolve; `GetToken` response and unrecognised documents go nowhere |
| `Sessions.Handshake` | src/index.ts:186-190 | the first `InvalidateAccount` update sets the flag and resolves `connect`, and does nothing else |
| `Sessions.LateInvalidate` | src/index.ts:187-196 | once the flag is set, `InvalidateAccount` is handled exactly like any other device update |
| `Sessions.UnsolicitedUpdate` | src/index.ts:195-206 | an update about a registered device merges into the first entry with that id and no other, firing one `DeviceUpdated` to the current subscribers; an unknown id changes nothing; a registered device whose `Status` has no `Attr` child makes the callback throw |
| `Sessions.DeviceStateLikeUpdate` | src/index.ts:306-315 | a `deviceState` reply changes the registry exactly as an unsolicited update would, rejects exactly when the device is unknown, and never settles exactly when an unsolicited update would throw (a registered device without `Attr`) |
| `Sessions.UnknownDeviceReason` | src/index.ts:313-315 | the rejection is `"Unknown device: "` followed by the reply's identifier |
| `Sessions.DeviceListRebuilds` | dist/index.js:239-241 | a device list replaces the registry by one fresh entry per descriptor, in reply order, all fields unset, leaving the slot and the flag alone |
| `Sessions.ReceiveAllKeepsSlot` | dist/index.js:151-173 | with subscribers that do not re-enter the connection, inbound traffic never clears or changes the pending slot or the subscribers |
| `Sessions.ReceiveHandshakes` | src/index.ts:187-190 | one line resolves `connect` exactly when it sets the flag |
| `Sessions.HandshakeOnce` | src/index.ts:170-190 | over any run of frames whose callbacks all return, `connect` resolves at most once, and the flag is never cleared |
| `Sessions.DrainHandshakes` | src/index.ts:170-216 | whatever the buffer holds, including a run that stops at a callback that throws, one pass of the `data` handler's loop resolves `connect` at most once, exactly when it sets the flag, and never clears the flag |
| `Sessions.TurnDrain` | src/index.ts:175-215 | after one turn of the loop, the buffer is shorter; if the callback returned, the rest of the loop gives what the whole loop gives, and if it threw, the loop stops there |
| `Sessions.DrainDispatchesFrames` | src/index.ts:171-216 | the loop runs the callback on exactly the frames of the raw lines, in order; it completes exactly when no callback throws, and then leaves exactly the unterminated remainder |
| `Sessions.DrainLeavesRemainder` | src/index.ts:172-177 | after a completed run no newline is buffered, and the raw lines followed by the remainder are the buffer |
| `Sessions.DrainInPieces` | src/index.ts:171-216 | handling chunk `a` then `b` gives the same buffer, state and outcome as handling `a + b`, and a throw in `a` stops both at the same place |
| `Client.FindViews` | src/index.ts:292 | searching the registry's values finds the same index as searching the devices |
| `Client.Connection.constructor` | src/index.ts:147-151 | host and port as given, port 2878 by default; empty buffer, no socket, no slot, no registry, no subscribers |
| `Client.Connection.Connect` | src/index.ts:166-170 | a new socket and a clear handshake flag, everything else in the protocol state unchanged |
| `Client.Connection.Disconnect` | dist/index.js:114-119 | forgets the socket, whether or not there was one, and touches nothing else |
| `Client.Connection.Send` | dist/index.js:187-201 | writes the encoded request followed by CRLF and fills the slot with this send, replacing any earlier one; with no socket it fails and changes nothing |
| `Client.Connection.GetToken` | src/index.ts:242-254 | as `Send`: with a socket, writes a `GetToken` request after everything written before, fills the slot with the ticket of this send (the old send count) and counts it; without one it fails and changes nothing |
| `Client.Connection.Login` | src/index.ts:256-269 | as `Send`: with a socket, writes an `AuthToken` request with the token after everything written before, fills the slot with the ticket of this send (the old send count) and counts it; without one it fails and changes nothing |
| `Client.Connection.DeviceList` | dist/index.js:227-238 | as `Send`: with a socket, writes a `DeviceList` request, with start 1, count 1 and group `ALL` by default after everything written before, fills the slot with the ticket of this send (the old send count) and counts it; without one it fails and changes nothing |
| `Client.Connection.DeviceState` | src/index.ts:295-305 | as `Send`: with a socket, writes a `DeviceState` request for the device after everything written before, fills the slot with the ticket of this send (the old send count) and counts it; without one it fails and changes nothing |
| `Client.Connection.ControlDevice` | dist/index.js:272-303 | as `Send`: with a socket, writes a `DeviceControl` request with command id `cmd00000` and the attribute list `ControlAttrs` after everything written before, fills the slot with the ticket of this send (the old send count) and counts it; without one it fails and changes nothing |
| `Client.Connection.FindDevice` | dist/index.js:245-247 | fails exactly when no list was fetched; otherwise gives the first device with that identifier, or reports that none has it |
| `Client.Connection.Record` | src/index.ts:181-210 | a resolve, reject or event firing is appended to the effect log and nothing else in the protocol state changes |
| `Client.Connection.CompleteHandshake` | src/index.ts:187-189 | the handshake flag is set and `connect` resolves, and nothing else changes |
| `Client.Connection.MergeInto` | src/index.ts:199-200 | `parseAttrs` on the device at that index merges into its view only; every other device's view is unchanged |
| `Client.Connection.UpdateByDuid` | src/index.ts:196-205 | finds the first device with the status's identifier; if there is one, the status is merged into it and `DeviceUpdated` fires; if there is none, nothing changes; if there is one but the status has no `Attr` child, it reports the throw and nothing changes |
| `Client.Connection.UpdateDevice` | src/index.ts:198-202 | merges the status into that device only and fires one `DeviceUpdated`, as `ApplyStatus` says |
| `Client.Connection.Dispatch` | src/index.ts:180-212 | the parse callback changes the protocol state exactly as `Receive` says, and a throw leaves it unchanged |
| `Client.Connection.DispatchUpdate` | src/index.ts:186-206 | the `Update` branch changes the protocol state exactly as `Receive` says |
| `Client.Connection.CutLine` | src/index.ts:176-177 | takes the buffer up to and including its first newline, returns that piece trimmed, and keeps the rest buffered |
| `Client.Connection.TakeLine` | src/index.ts:176-214 | one turn of the loop: cuts the first line and, if it is a frame, runs the callback on its decoding, changing the protocol state as `Receive` says; `ok` is false exactly when the callback threw |
| `Client.Connection.TakeLines` | src/index.ts:175-215 | the loop leaves the buffer, state and outcome that `Drain` gives |
| `Client.Connection.OnData` | src/index.ts:171-216 | the `data` handler leaves the buffer, state and outcome that `Drain` gives for the old buffer plus the chunk; on completion no newline is buffered and nothing is lost |
| `Client.Connection.NewDevices` | dist/index.js:240 | one new device per descriptor, in reply order, with the descriptor's identity, all fields unset and a state object of its own |
| `Client.Connection.DeviceListReply` | dist/index.js:239-241 | installs fresh devices, one per descriptor, as `AnswerDeviceList` says, or never settles when the reply has no list |
| `Client.Connection.DeviceStateReply` | dist/index.js:258-268 | changes the protocol state and settles as `AnswerDeviceState` says, resolving with the registered device object itself |

## Left out

- The TLS socket is not modelled: opening it, the cipher list, its `close`
  and `error` wiring, the `Disconnected` event it feeds, and the UTF-8
  decoding of each chunk. The model takes a socket identifier and chunks
  that are already strings.
- Earlier sockets' `data` handlers are not modelled. They stay attached after
  another `connect`, each with its own handshake flag; the model follows only
  the latest socket.
- `xml2js.parseString` and the XML builder are not modelled. The model does
  not model XML text: decoding and encoding are the parameters `decode` and
  `encode`. Some documents make the source throw while reading them, and
  these are not representable:
  - An `Update` or `Response` element with child elements but no attributes
    gets no `$` key, so reading its `Type` throws (src/index.ts:186, 207).
  - A `Status` element, a `Device` element of a device-state reply, or a
    `Device` element of a device list without attributes throws when its
    `DUID` is read (src/index.ts:196, 285, 307).
  - An `Attr` element without attributes throws inside `parseAttrs`.

  An element with neither attributes nor children parses to the empty
  string, which is falsy. So an empty `<Update/>` or `<Response/>` is
  ignored (src/index.ts:186, 207), and `decode` expresses it as
  `Unrecognised`.
- An attribute that lacks `ID` or `Value` is not representable.
- Promise mechanics are not modelled, including later calls on an already
  settled resolve or reject. Outcomes are entries in a ghost log.
- The `getToken` and `login` continuations are left out. These extract the
  token and `StartFrom` from the reply. `Client.Connection.GetToken` and
  `Client.Connection.Login` state only what is sent and how the slot is
  filled.
- `Numbers.ParseNumber`: `Number()` is modelled for optionally signed decimal
  integers and the empty string. Fractions, exponents, `0x`, `0o` and `0b`
  literals, surrounding white space and `Infinity` are modelled as NaN, where
  JavaScript reads them as numbers. A non-integer temperature is not
  representable. Integers are unbounded. JavaScript reads digit strings
  beyond 2^53 inexactly, and `String(n)` writes |n| >= 1e21 in exponent
  form. So `ParseToDecimal` holds in JavaScript only for |n| <= 2^53.
- Logging is not modelled: `debug_log`, `console.warn`, `console.error`.
- Subscribers that call back into the connection are not modelled.
  `onUpdate.trigger` runs each subscriber synchronously, inside the parse
  callback and in the middle of the `data` handler's loop (src/index.ts:33,
  202, 311). There a subscriber could call `deviceState` or `controlDevice`,
  which write to the socket and replace the pending resolve/reject pair. It
  could call `off`, which changes who is called for the next update, or
  `disconnect`. It could also throw, which stops `trigger` at that subscriber
  (src/index.ts:33) and leaves the `data` handler as a fault. Handlers here are
  inert identifiers that neither re-enter nor throw. So `ReceiveFacts`,
  `ReceiveAllKeepsSlot` and the frame of `OnData` (which modifies neither the
  slot, the written frames nor the socket) hold only for subscribers that do
  not re-enter the connection or its events; and a `DeviceUpdated` entry
  always lists every subscriber as called.
- The `try`/`catch` around opening the socket in `connect` is not modelled.
- The `Disconnected` and `DeviceUpdated` getters and `LiteEvent.expose` are
  not modelled; they only return the object.
- `dist/index.d.ts` is not part of this model: it is declarations only.
- `Framing.Frames` does not relate each frame back to its raw line. The
  lemmas state that frames start with `<` and come at most one per raw line,
  but not that each is the trim of its raw line, beyond the definition of
  `FrameOf`.

=== FILE: connection.dfy ===
/** The `Connection` object: its fields, the requests it sends, the request
    continuations that use the device registry, and the socket's `data`
    handler. Each operation is proved to act on `Abstract()`, the protocol
    state as a value, exactly as module Sessions defines. */
module Client {
  import opened Wrappers
  import opened Seqs
  import opened Devices
  import opened Events
  import opened Messages
  import opened Framing
  import opened Sessions

  const DEFAULT_PORT: int := 2878
  /** Every request written to the socket is followed by this. */
  const CRLF: string := "\r\n"

  /** A socket as `tls.connect` hands it out. */
  type SocketId = nat

  /** The result of `findDevice`: no device list fetched yet (the source
      dereferences an undefined registry and throws), no such device, or the
      device and its position in the registry. */
  datatype Lookup = NoList | NotFound | Found(index: nat, device: Device)

  function Duids(ds: seq<Device>): seq<string>
  {
    seq(|ds|, i requires 0 <= i < |ds| => ds[i].duid)
  }

  function View(d: Device): DeviceView
    reads d.state
  {
    DeviceView(Descriptor(d.duid, d.group, d.model), d.state.Fields())
  }

  /** The registry as values: each device's identity and current state. */
  function Views(ds: seq<Device>): (v: seq<DeviceView>)
    reads set d | d in ds :: d.state
    ensures |v| == |ds| && forall i :: 0 <= i < |ds| ==> v[i] == View(ds[i])
    decreases |ds|
  {
    if ds == [] then [] else Views(ds[..|ds| - 1]) + [View(ds[|ds| - 1])]
  }

  /** Searching the registry's values finds the same position as searching the devices. */
  lemma FindViews(ds: seq<Device>, duid: string)
    ensures Find(Views(ds), duid) == IndexOf(Duids(ds), duid)
  {
    assert ViewIds(Views(ds)) == Duids(ds);
  }

  class Connection {
    const hostname: string
    const port: int
    /** `xml2js.parseString`, as a function from a line to the decoded message. */
    const decode: string -> Inbound
    /** `new xml2js.Builder({renderOpts: {pretty: false}}).buildObject`. */
    const encode: Request -> string
    /** The subscribers to `DeviceUpdated`. */
    const onUpdate: LiteEvent

    var stream: Option<SocketId>
    var incoming: string
    /** The handshake flag of the current `connect`. */
    var invalidated: bool
    var devices: Option<seq<Device>>
    /** The send whose resolve/reject pair fills the pending slot. */
    var pending: Option<Ticket>
    /** How many requests were sent so far. */
    var sends: nat
    /** Everything written to the socket, one entry per write. */
    var written: seq<string>
    /** What the `data` handler and the continuations did besides updating state. */
    ghost var effects: seq<Effect>

    /** Every device owns its own state object, and the slot holds a past send. */
    ghost predicate Valid()
      reads this`devices, this`pending, this`sends
    {
      (devices.Some? ==> forall i, j :: 0 <= i < j < |devices.value| ==> devices.value[i].state != devices.value[j].state)
      && (pending.Some? ==> pending.value < sends)
    }

    function StateObjects(): set<DeviceState>
      reads this`devices
    {
      if devices.Some? then set d | d in devices.value :: d.state else {}
    }

    ghost function Abstract(): Session
      reads this`invalidated, this`pending, this`devices, this`effects, onUpdate`handlers, StateObjects()
    {
      Session(invalidated, pending, if devices.Some? then Some(Views(devices.value)) else None,
              onUpdate.handlers, effects)
    }

    constructor (hostname: string, decode: string -> Inbound, encode: Request -> string, port: int := DEFAULT_PORT)
      ensures this.hostname == hostname && this.port == port
      ensures this.decode == decode && this.encode == encode
      ensures stream.None? && incoming == "" && written == [] && sends == 0
      ensures fresh(onUpdate)
      ensures Valid() && Abstract() == Session(false, None, None, [], [])
    {
      this.hostname := hostname;
      this.port := port;
      this.decode := decode;
      this.encode := encode;
      onUpdate := new LiteEvent();
      stream := None;
      incoming := "";
      invalidated := false;
      devices := None;
      pending := None;
      sends := 0;
      written := [];
      effects := [];
    }

    /** What a handler did, besides changing state, is appended to the log. */
    ghost method Record(e: Effect)
      modifies this`effects
      ensures Abstract() == Log(old(Abstract()), e)
    {
      effects := effects + [e];
    }

    /** The handshake completes: the flag is set and the connect promise resolves. */
    method CompleteHandshake()
      modifies this`invalidated, this`effects
      ensures Abstract() == Log(old(Abstract()).(invalidated := true), ConnectResolved)
    {
      invalidated := true;
      Record(ConnectResolved);
    }

    /** `connect`: a new socket and a clear handshake flag. The buffer, the
        pending slot and the registry carry over. */
    method Connect(socket: SocketId)
      modifies this`stream, this`invalidated
      ensures stream == Some(socket)
      ensures Abstract() == old(Abstract()).(invalidated := false)
    {
      stream := Some(socket);
      invalidated := false;
    }

    /** `disconnect`: forgets the socket, whether or not there was one. */
    method Disconnect()
      modifies this`stream
      ensures stream.None?
    {
      if stream.Some? {
        stream := None;
      }
    }

    /** `send`: writes the request and a CRLF, and puts its resolve/reject pair
        in the slot, replacing whatever was there. With no socket the write
        throws: the request fails at once and nothing changes. */
    method Send(req: Request) returns (ticket: Option<Ticket>)
      requires Valid()
      modifies this`written, this`pending, this`sends
      ensures Valid()
      ensures stream.None? ==> ticket.None? && written == old(written) && pending == old(pending) && sends == old(sends)
      ensures stream.Some? ==> ticket == Some(old(sends)) && pending == ticket && sends == old(sends) + 1
      ensures stream.Some? ==> written == old(written) + [encode(req) + CRLF]
    {
      if stream.None? {
        return None;
      }
      written := written + [encode(req) + CRLF];
      pending := Some(sends);
      ticket := pending;
      sends := sends + 1;
    }

    /** `getToken`: sends a `GetToken` request. */
    method GetToken() returns (ticket: Option<Ticket>)
      requires Valid()
      modifies this`written, this`pending, this`sends
      ensures Valid()
      ensures stream.None? ==> ticket.None? && written == old(written) && pending == old(pending) && sends == old(sends)
      ensures stream.Some? ==> ticket == Some(old(sends)) && pending == ticket && sends == old(sends) + 1
      ensures stream.Some? ==> written == old(written) + [encode(GetTokenRequest) + CRLF]
    {
      ticket := Send(GetTokenRequest);
    }

    /** `login`: sends an `AuthToken` request carrying the token. */
    method Login(token: string) returns (ticket: Option<Ticket>)
      requires Valid()
      modifies this`written, this`pending, this`sends
      ensures Valid()
      ensures stream.None? ==> ticket.None? && written == old(written) && pending == old(pending) && sends == old(sends)
      ensures stream.Some? ==> ticket == Some(old(sends)) && pending == ticket && sends == old(sends) + 1
      ensures stream.Some? ==> written == old(written) + [encode(AuthTokenRequest(token)) + CRLF]
    {
      ticket := Send(AuthTokenRequest(token));
    }

    /** `deviceList`: sends a `DeviceList` request; by default from 1, one entry, group `ALL`. */
    method DeviceList(start: int := DEFAULT_START, count: int := DEFAULT_COUNT, group: string := DEFAULT_GROUP)
      returns (ticket: Option<Ticket>)
      requires Valid()
      modifies this`written, this`pending, this`sends
      ensures Valid()
      ensures stream.None? ==> ticket.None? && written == old(written) && pending == old(pending) && sends == old(sends)
      ensures stream.Some? ==> ticket == Some(old(sends)) && pending == ticket && sends == old(sends) + 1
      ensures stream.Some? ==> written == old(written) + [encode(DeviceListRequest(start, count, group)) + CRLF]
    {
      ticket := Send(DeviceListRequest(start, count, group));
    }

    /** `deviceState`: sends a `DeviceState` request for the device. */
    method DeviceState(duid: string) returns (ticket: Option<Ticket>)
      requires Valid()
      modifies this`written, this`pending, this`sends
      ensures Valid()
      ensures stream.None? ==> ticket.None? && written == old(written) && pending == old(pending) && sends == old(sends)
      ensures stream.Some? ==> ticket == Some(old(sends)) && pending == ticket && sends == old(sends) + 1
      ensures stream.Some? ==> written == old(written) + [encode(DeviceStateRequest(duid)) + CRLF]
    {
      ticket := Send(DeviceStateRequest(duid));
    }

    /** `controlDevice`: sends a `DeviceControl` request with the attributes the options ask for. */
    method ControlDevice(duid: string, o: ControlOptions) returns (ticket: Option<Ticket>)
      requires Valid()
      modifies this`written, this`pending, this`sends
      ensures Valid()
      ensures stream.None? ==> ticket.None? && written == old(written) && pending == old(pending) && sends == old(sends)
      ensures stream.Some? ==> ticket == Some(old(sends)) && pending == ticket && sends == old(sends) + 1
      ensures stream.Some? ==> written == old(written) + [encode(DeviceControlRequest(COMMAND_ID, duid, ControlAttrs(o))) + CRLF]
    {
      ticket := Send(ControlRequest(duid, o));
    }

    /** `findDevice`: the first registered device with identifier `duid`. */
    function FindDevice(duid: string): (r: Lookup)
      reads this`devices
      ensures r.NoList? <==> devices.None?
      ensures r.Found? ==> devices.Some? && r.index < |devices.value| && r.device == devices.value[r.index]
      ensures r.Found? ==> r.device.duid == duid && forall j :: 0 <= j < r.index ==> devices.value[j].duid != duid
      ensures r.NotFound? ==> forall j :: 0 <= j < |devices.value| ==> devices.value[j].duid != duid
    {
      if devices.None? then NoList
      else
        var ds := devices.value;
        var k := IndexOf(Duids(ds), duid);
        IndexOfFirst(Duids(ds), duid);
        assert forall j :: 0 <= j < |ds| ==> Duids(ds)[j] == ds[j].duid;
        if k < 0 then NotFound else Found(k, ds[k])
    }

    /** Device `k` merges `st`'s attributes, and `DeviceUpdated` fires once. */
    method UpdateDevice(k: nat, st: Status)
      requires Valid() && devices.Some? && k < |devices.value| && st.attrs.Some?
      modifies this`effects, devices.value[k].state
      ensures Valid()
      ensures Abstract() == ApplyStatus(old(Abstract()), k, st)
    {
      MergeInto(k, st.attrs.value);
      var invoked := onUpdate.Trigger();
      Record(DeviceUpdated(k, st.duid, st.attrs.value, invoked));
    }

    /** `dev.state.parseAttrs(atts)` for device `k`: its view merges the
        attributes, and no other device's view changes. */
    method MergeInto(k: nat, attrs: seq<Attr>)
      requires Valid() && devices.Some? && k < |devices.value|
      modifies devices.value[k].state
      ensures var before := old(Views(devices.value));
        Views(devices.value) == before[k := before[k].(fields := Merge(before[k].fields, attrs))]
      ensures Abstract() == old(Abstract()).(registry := Some(Views(devices.value)))
    {
      var ds := devices.value;
      var dev := ds[k];
      ghost var before := Views(ds);
      dev.state.ParseAttrs(attrs);
      forall i | 0 <= i < |ds| && i != k
        ensures Views(ds)[i] == before[i]
      {
        assert ds[i].state != dev.state;
      }
      assert Views(ds) == before[k := before[k].(fields := Merge(before[k].fields, attrs))];
    }

    /** Looks up the device a status names and, if it is registered, merges
        the status into it and fires `DeviceUpdated`. `ok` is false when the
        device is registered but the status has no `Attr` child, so that
        `.Attr.map` throws before anything changes. */
    method UpdateByDuid(st: Status) returns (found: Lookup, ok: bool)
      requires Valid() && devices.Some?
      modifies this`effects, StateObjects()
      ensures Valid()
      ensures found == old(FindDevice(st.duid)) && found != NoList
      ensures var s, k := old(Abstract()), Find(old(Abstract()).registry.value, st.duid);
        (found.Found? <==> k >= 0)
        && (found.Found? ==> found.index == k)
        && (ok <==> k < 0 || st.attrs.Some?)
        && Abstract() == if k < 0 || !ok then s else ApplyStatus(s, k, st)
    {
      found := FindDevice(st.duid);
      FindViews(devices.value, st.duid);
      ok := true;
      if found.Found? {
        if st.attrs.None? {
          return found, false;
        }
        UpdateDevice(found.index, st);
      }
    }

    /** The parse callback on one decoded line; `ok` is false when it throws. */
    method Dispatch(m: Inbound) returns (ok: bool)
      requires Valid()
      modifies this`invalidated, this`effects, StateObjects()
      ensures Valid()
      ensures Receive(old(Abstract()), m) == if ok then Some(Abstract()) else None
      ensures !ok ==> Abstract() == old(Abstract())
    {
      ok := true;
      match m
      case DecodeError(e) =>
        if pending.Some? {
          Record(RequestRejected(pending.value, e));
        }
      case Update(kind, status) =>
        ok := DispatchUpdate(m);
      case Response(kind, _, _) =>
        if kind != GET_TOKEN && pending.Some? {
          Record(RequestResolved(pending.value, m));
        }
      case Unrecognised =>
    }

    /** The `obj.Update` branch of the parse callback. */
    method DispatchUpdate(m: Inbound) returns (ok: bool)
      requires Valid() && m.Update?
      modifies this`invalidated, this`effects, StateObjects()
      ensures Valid()
      ensures Receive(old(Abstract()), m) == if ok then Some(Abstract()) else None
      ensures !ok ==> Abstract() == old(Abstract())
    {
      ok := true;
      if !invalidated && m.kind == ACCOUNT_INVALIDATED {
        CompleteHandshake();
      } else if m.kind == GET_TOKEN {
        if pending.Some? {
          Record(RequestResolved(pending.value, m));
        }
      } else if m.status.None? || devices.None? {
        ok := false;
      } else {
        var _, updated := UpdateByDuid(m.status.value);
        ok := updated;
      }
    }

    /** One turn of the `data` handler's loop: cut the first line and, if it
        is a frame, decode it and run the parse callback. */
    method TakeLine() returns (ok: bool)
      requires Valid() && IndexOf(incoming, NEWLINE) >= 0
      modifies this`incoming, this`invalidated, this`effects, StateObjects()
      ensures Valid()
      ensures Turn(old(incoming), old(Abstract()), decode, incoming, Abstract(), ok)
    {
      ghost var s0 := Abstract();
      var line := CutLine();
      assert Abstract() == s0;
      if !IsFrame(line) {
        return true;
      }
      ok := Dispatch(decode(line));
    }

    /** Cuts the buffer after its first newline and trims the piece cut off. */
    method CutLine() returns (line: string)
      requires IndexOf(incoming, NEWLINE) >= 0
      modifies this`incoming
      ensures line == Trim(old(incoming)[..IndexOf(old(incoming), NEWLINE) + 1])
      ensures incoming == old(incoming)[IndexOf(old(incoming), NEWLINE) + 1..]
    {
      var eol := IndexOf(incoming, NEWLINE);
      line := Trim(incoming[..eol + 1]);
      incoming := incoming[eol + 1..];
    }

    /** The socket's `data` handler: appends the chunk, then cuts, trims and
        decodes line after line. `ok` is false when a callback threw; the lines
        after the failing one then stay buffered. */
    method OnData(chunk: string) returns (ok: bool)
      requires Valid()
      modifies this`incoming, this`invalidated, this`effects, StateObjects()
      ensures Valid()
      ensures (incoming, Abstract(), ok) == Drain(old(incoming) + chunk, old(Abstract()), decode)
      ensures ok ==> forall k :: 0 <= k < |incoming| ==> incoming[k] != NEWLINE
      ensures ok ==> Concat(SplitLines(old(incoming) + chunk).0) + incoming == old(incoming) + chunk
    {
      incoming := incoming + chunk;
      ghost var buf, s0 := incoming, Abstract();
      assert s0 == old(Abstract());
      ok := TakeLines();
      assert (incoming, Abstract(), ok) == Drain(buf, s0, decode);
      if ok {
        DrainLeavesRemainder(buf, s0, decode);
      }
    }

    /** The `while` loop of the `data` handler. */
    method TakeLines() returns (ok: bool)
      requires Valid()
      modifies this`incoming, this`invalidated, this`effects, StateObjects()
      ensures Valid()
      ensures (incoming, Abstract(), ok) == Drain(old(incoming), old(Abstract()), decode)
    {
      while IndexOf(incoming, NEWLINE) >= 0
        invariant Valid() && devices == old(devices)
        invariant Drain(incoming, Abstract(), decode) == Drain(old(incoming), old(Abstract()), decode)
        decreases |incoming|
      {
        ghost var buf, s := incoming, Abstract();
        var more := TakeLine();
        TurnDrain(buf, s, decode, incoming, Abstract(), more);
        if !more {
          return false;
        }
      }
      return true;
    }

    /** The `deviceList` continuation on its reply: a fresh registry, one new
        device per descriptor in reply order, every state unset. A reply
        without a device list throws and the promise never settles. */
    method DeviceListReply(reply: Inbound) returns (outcome: Settled<seq<Device>>)
      requires Valid()
      modifies this`devices
      ensures Valid()
      ensures outcome.NeverSettles? <==> AnswerDeviceList(old(Abstract()), reply).None?
      ensures outcome.NeverSettles? ==> devices == old(devices)
      ensures outcome.Resolved? ==> devices == Some(outcome.value) && Some(Abstract()) == AnswerDeviceList(old(Abstract()), reply)
      ensures outcome.Resolved? ==> forall i :: 0 <= i < |outcome.value| ==> fresh(outcome.value[i]) && fresh(outcome.value[i].state)
      ensures !outcome.Rejected?
    {
      if !(reply.Response? && reply.list.Some?) {
        return NeverSettles;
      }
      var ds := NewDevices(reply.list.value);
      ghost var views := Views(ds);
      assert views == FreshViews(reply.list.value);
      devices := Some(ds);
      outcome := Resolved(ds);
    }

    /** `DeviceList[0].Device.map(dev => new Device(...))`: one new device per
        descriptor, in order, each with its own new state, all fields unset. */
    static method NewDevices(descs: seq<Descriptor>) returns (ds: seq<Device>)
      ensures |ds| == |descs|
      ensures forall j :: 0 <= j < |ds| ==> fresh(ds[j]) && fresh(ds[j].state)
      ensures forall j :: 0 <= j < |ds| ==> View(ds[j]) == DeviceView(descs[j], Unset)
      ensures forall a, b :: 0 <= a < b < |ds| ==> ds[a].state != ds[b].state
    {
      ds := [];
      for i := 0 to |descs|
        invariant |ds| == i
        invariant forall j :: 0 <= j < i ==> fresh(ds[j]) && fresh(ds[j].state)
        invariant forall j :: 0 <= j < i ==> View(ds[j]) == DeviceView(descs[j], Unset)
        invariant forall a, b :: 0 <= a < b < i ==> ds[a].state != ds[b].state
      {
        var d := new Device(descs[i].duid, descs[i].group, descs[i].model);
        ds := ds + [d];
      }
    }

    /** The `deviceState` continuation on its reply, as `AnswerDeviceState`
        says; a resolved request yields the device object itself. */
    method DeviceStateReply(reply: Inbound) returns (outcome: Settled<Device>)
      requires Valid()
      modifies this`effects, StateObjects()
      ensures Valid()
      ensures Abstract() == AnswerDeviceState(old(Abstract()), reply).0
      ensures var o := AnswerDeviceState(old(Abstract()), reply).1;
        (outcome.Resolved? <==> o.Resolved?)
        && (o.Resolved? ==> devices.Some? && o.value < |devices.value| && outcome.value == devices.value[o.value])
        && (o.Rejected? ==> outcome == Rejected(o.reason))
        && (o.NeverSettles? ==> outcome.NeverSettles?)
    {
      if !reply.Response? || reply.state.None? || devices.None? {
        return NeverSettles;
      }
      var st := reply.state.value;
      var found, ok := UpdateByDuid(st);
      if !ok {
        outcome := NeverSettles;
      } else if found.Found? {
        outcome := Resolved(found.device);
      } else {
        outcome := Rejected(UNKNOWN_DEVICE + st.duid);
      }
    }
  }
}

=== FILE: devices.dfy ===
/** Device identity and the attribute-driven device state (`DeviceState`,
    `Device` and `DeviceState.parseAttrs`). */
module Devices {
  import opened Wrappers
  import opened Numbers

  /** The controller reports the current temperature offset by this amount. */
  const CURRENT_TEMP_FUDGE: int := 55

  const AC_FUN_TEMPNOW: string := "AC_FUN_TEMPNOW"
  const AC_FUN_TEMPSET: string := "AC_FUN_TEMPSET"
  const AC_FUN_POWER: string := "AC_FUN_POWER"
  const AC_FUN_OPMODE: string := "AC_FUN_OPMODE"
  const AC_FUN_WINDLEVEL: string := "AC_FUN_WINDLEVEL"
  const AC_FUN_FAN: string := "AC_FUN_FAN"

  /** The attribute identifiers that `parseAttrs` acts on. */
  const StateIds: set<string> :=
    {AC_FUN_TEMPNOW, AC_FUN_TEMPSET, AC_FUN_POWER, AC_FUN_OPMODE, AC_FUN_WINDLEVEL, AC_FUN_FAN}

  /** One wire attribute: its `ID`, `Type` and `Value`. */
  datatype Attr = Attr(id: string, kind: string, value: string)

  /** The six optional fields of a `DeviceState`. The four mode fields hold the
      raw attribute text: the source casts it to its enums without checking. */
  datatype StateFields = StateFields(
    fan: Option<string>,
    operation: Option<string>,
    power: Option<string>,
    currentTemp: Option<JsNumber>,
    targetTemp: Option<JsNumber>,
    fanSpeed: Option<string>)

  /** A freshly constructed state: every field undefined. */
  const Unset := StateFields(None, None, None, None, None, None)

  /** The effect of one attribute on the state (one turn of the `parseAttrs` loop). */
  function Apply(s: StateFields, a: Attr): StateFields
  {
    if a.id == AC_FUN_TEMPNOW then s.(currentTemp := Some(Subtract(ParseNumber(a.value), CURRENT_TEMP_FUDGE)))
    else if a.id == AC_FUN_TEMPSET then s.(targetTemp := Some(ParseNumber(a.value)))
    else if a.id == AC_FUN_POWER then s.(power := Some(a.value))
    else if a.id == AC_FUN_OPMODE then s.(operation := Some(a.value))
    else if a.id == AC_FUN_WINDLEVEL then s.(fanSpeed := Some(a.value))
    else if a.id == AC_FUN_FAN then s.(fan := Some(a.value))
    else s
  }

  /** The state after `parseAttrs(attrs)`: the attributes applied in order. */
  function Merge(s: StateFields, attrs: seq<Attr>): StateFields
    decreases |attrs|
  {
    if attrs == [] then s else Apply(Merge(s, attrs[..|attrs| - 1]), attrs[|attrs| - 1])
  }

  /** A field's value, whatever its type. */
  datatype FieldValue = Text(text: string) | Number(number: JsNumber)

  function TextField(v: Option<string>): Option<FieldValue>
  {
    match v
    case None => None
    case Some(t) => Some(Text(t))
  }

  function NumberField(v: Option<JsNumber>): Option<FieldValue>
  {
    match v
    case None => None
    case Some(x) => Some(Number(x))
  }

  /** The field that attribute identifier `id` controls. */
  function Get(s: StateFields, id: string): Option<FieldValue>
  {
    if id == AC_FUN_TEMPNOW then NumberField(s.currentTemp)
    else if id == AC_FUN_TEMPSET then NumberField(s.targetTemp)
    else if id == AC_FUN_POWER then TextField(s.power)
    else if id == AC_FUN_OPMODE then TextField(s.operation)
    else if id == AC_FUN_WINDLEVEL then TextField(s.fanSpeed)
    else if id == AC_FUN_FAN then TextField(s.fan)
    else None
  }

  /** What an attribute with identifier `id` and text `value` stores: the
      current temperature is converted, everything else is taken as it is. */
  function Stored(id: string, value: string): FieldValue
  {
    if id == AC_FUN_TEMPNOW then Number(Subtract(ParseNumber(value), CURRENT_TEMP_FUDGE))
    else if id == AC_FUN_TEMPSET then Number(ParseNumber(value))
    else Text(value)
  }

  /** Index of the last attribute in `attrs` with identifier `id`. */
  function LastIndex(attrs: seq<Attr>, id: string): (r: Option<nat>)
    ensures r.Some? ==> r.value < |attrs| && attrs[r.value].id == id
    ensures r.Some? ==> forall j :: r.value < j < |attrs| ==> attrs[j].id != id
    ensures r.None? ==> forall j :: 0 <= j < |attrs| ==> attrs[j].id != id
    decreases |attrs|
  {
    if attrs == [] then None
    else if attrs[|attrs| - 1].id == id then Some(|attrs| - 1)
    else LastIndex(attrs[..|attrs| - 1], id)
  }

  /** Two states that agree on all six fields are the same state. */
  lemma FieldsDetermineState(s: StateFields, t: StateFields)
    requires forall id :: id in StateIds ==> Get(s, id) == Get(t, id)
    ensures s == t
  {
    assert Get(s, AC_FUN_TEMPNOW) == Get(t, AC_FUN_TEMPNOW);
    assert Get(s, AC_FUN_TEMPSET) == Get(t, AC_FUN_TEMPSET);
    assert Get(s, AC_FUN_POWER) == Get(t, AC_FUN_POWER);
    assert Get(s, AC_FUN_OPMODE) == Get(t, AC_FUN_OPMODE);
    assert Get(s, AC_FUN_WINDLEVEL) == Get(t, AC_FUN_WINDLEVEL);
    assert Get(s, AC_FUN_FAN) == Get(t, AC_FUN_FAN);
  }

  lemma ApplyGet(s: StateFields, a: Attr, id: string)
    requires id in StateIds
    ensures Get(Apply(s, a), id) == if a.id == id then Some(Stored(id, a.value)) else Get(s, id)
  {
  }

  /** The merge rule: a field ends up with the value of the LAST attribute that
      carries its identifier, converted as `Stored` says, and a field whose
      identifier does not occur keeps its old value (the merge is sparse). */
  lemma {:induction false} MergeGet(s: StateFields, attrs: seq<Attr>, id: string)
    requires id in StateIds
    ensures Get(Merge(s, attrs), id) ==
      match LastIndex(attrs, id)
      case None => Get(s, id)
      case Some(j) => Some(Stored(id, attrs[j].value))
    decreases |attrs|
  {
    if attrs != [] {
      var init := attrs[..|attrs| - 1];
      ApplyGet(Merge(s, init), attrs[|attrs| - 1], id);
      if attrs[|attrs| - 1].id != id {
        MergeGet(s, init, id);
        assert LastIndex(attrs, id) == LastIndex(init, id);
        assert forall j :: 0 <= j < |init| ==> init[j] == attrs[j];
      }
    }
  }

  /** Attributes with identifiers outside the six change nothing. */
  lemma {:induction false} MergeUnknown(s: StateFields, attrs: seq<Attr>)
    requires forall i :: 0 <= i < |attrs| ==> attrs[i].id !in StateIds
    ensures Merge(s, attrs) == s
    decreases |attrs|
  {
    if attrs != [] {
      MergeUnknown(s, attrs[..|attrs| - 1]);
    }
  }

  /** Merging two attribute lists one after the other is merging their concatenation. */
  lemma {:induction false} MergeAppend(s: StateFields, a: seq<Attr>, b: seq<Attr>)
    ensures Merge(s, a + b) == Merge(Merge(s, a), b)
    decreases |b|
  {
    if b == [] {
      assert a + b == a;
    } else {
      assert (a + b)[..|a + b| - 1] == a + b[..|b| - 1];
      MergeAppend(s, a, b[..|b| - 1]);
    }
  }

  /** Only identifiers and values matter to the merge; the `Type` attribute is ignored. */
  lemma {:induction false} MergeIgnoresKind(s: StateFields, a: seq<Attr>, b: seq<Attr>)
    requires |a| == |b|
    requires forall i :: 0 <= i < |a| ==> a[i].id == b[i].id && a[i].value == b[i].value
    ensures Merge(s, a) == Merge(s, b)
    decreases |a|
  {
    if a != [] {
      MergeIgnoresKind(s, a[..|a| - 1], b[..|b| - 1]);
    }
  }

  /** A reported current temperature of t is stored as t - 55, a set point as is. */
  lemma TemperatureConversion(s: StateFields, kind: string, t: int)
    ensures Merge(s, [Attr(AC_FUN_TEMPNOW, kind, ToDecimal(t))]).currentTemp == Some(Finite(t - 55))
    ensures Merge(s, [Attr(AC_FUN_TEMPSET, kind, ToDecimal(t))]).targetTemp == Some(Finite(t))
  {
    ParseToDecimal(t);
  }

  /** The state object owned by a device; `parseAttrs` updates it in place. */
  class DeviceState {
    var fan: Option<string>
    var operation: Option<string>
    var power: Option<string>
    var currentTemp: Option<JsNumber>
    var targetTemp: Option<JsNumber>
    var fanSpeed: Option<string>

    constructor ()
      ensures Fields() == Unset
    {
      fan, operation, power := None, None, None;
      currentTemp, targetTemp, fanSpeed := None, None, None;
    }

    function Fields(): StateFields
      reads this
    {
      StateFields(fan, operation, power, currentTemp, targetTemp, fanSpeed)
    }

    method ParseAttrs(attrs: seq<Attr>)
      modifies this
      ensures Fields() == Merge(old(Fields()), attrs)
    {
      for i := 0 to |attrs|
        invariant Fields() == Merge(old(Fields()), attrs[..i])
      {
        assert attrs[..i + 1][..i] == attrs[..i];
        var attr := attrs[i];
        if attr.id == AC_FUN_TEMPNOW {
          currentTemp := Some(Subtract(ParseNumber(attr.value), CURRENT_TEMP_FUDGE));
        } else if attr.id == AC_FUN_TEMPSET {
          targetTemp := Some(ParseNumber(attr.value));
        } else if attr.id == AC_FUN_POWER {
          power := Some(attr.value);
        } else if attr.id == AC_FUN_OPMODE {
          operation := Some(attr.value);
        } else if attr.id == AC_FUN_WINDLEVEL {
          fanSpeed := Some(attr.value);
        } else if attr.id == AC_FUN_FAN {
          fan := Some(attr.value);
        }
      }
      assert attrs[..|attrs|] == attrs;
    }
  }

  /** A device of the registry: an identity that never changes and one owned state. */
  class Device {
    const duid: string
    const group: string
    const model: string
    const state: DeviceState

    constructor (duid: string, group: string, model: string)
      ensures this.duid == duid && this.group == group && this.model == model
      ensures fresh(state) && state.Fields() == Unset
    {
      this.duid := duid;
      this.group := group;
      this.model := model;
      state := new DeviceState();
    }
  }

  /** A device as a device-list reply describes it (`DUID`, `GroupID`, `ModelID`). */
  datatype Descriptor = Descriptor(duid: string, group: string, model: string)
}

=== FILE: events.dfy ===
/** `LiteEvent`: an ordered list of subscribers. Handlers are represented by
    identifiers; calling a handler is represented by listing its identifier.
    A handler is taken to do nothing to the connection or its events while it
    runs. */
module Events {

  type HandlerId = nat

  /** `handlers.filter(h => h !== handler)`. */
  function Without(s: seq<HandlerId>, h: HandlerId): (r: seq<HandlerId>)
    ensures h !in r
    ensures forall x :: x != h ==> multiset(r)[x] == multiset(s)[x]
    decreases |s|
  {
    if s == [] then []
    else
      assert s == [s[0]] + s[1..];
      (if s[0] == h then [] else [s[0]]) + Without(s[1..], h)
  }

  /** Filtering keeps the order: filtering a concatenation filters each part. */
  lemma {:induction false} WithoutAppend(s: seq<HandlerId>, t: seq<HandlerId>, h: HandlerId)
    ensures Without(s + t, h) == Without(s, h) + Without(t, h)
    decreases |s|
  {
    if s != [] {
      assert (s + t)[1..] == s[1..] + t;
      WithoutAppend(s[1..], t, h);
    } else {
      assert s + t == t;
    }
  }

  /** Removing a handler that is not subscribed changes nothing. */
  lemma {:induction false} WithoutAbsent(s: seq<HandlerId>, h: HandlerId)
    requires h !in s
    ensures Without(s, h) == s
    decreases |s|
  {
    if s != [] {
      assert s[0] != h && h !in s[1..];
      WithoutAbsent(s[1..], h);
    }
  }

  /** `off(h)` undoes `on(h)`, and also drops every earlier registration of `h`. */
  lemma OnThenOff(s: seq<HandlerId>, h: HandlerId)
    ensures Without(s + [h], h) == Without(s, h)
    ensures h !in s ==> Without(s + [h], h) == s
  {
    WithoutAppend(s, [h], h);
    assert Without([h], h) == [];
    if h !in s {
      WithoutAbsent(s, h);
    }
  }

  class LiteEvent {
    var handlers: seq<HandlerId>

    constructor ()
      ensures handlers == []
    {
      handlers := [];
    }

    /** Subscribes `h`, after every existing subscriber, even if already subscribed. */
    method On(h: HandlerId)
      modifies this
      ensures handlers == old(handlers) + [h]
    {
      handlers := handlers + [h];
    }

    /** Unsubscribes every occurrence of `h`, keeping the others in order. */
    method Off(h: HandlerId)
      modifies this
      ensures handlers == Without(old(handlers), h)
    {
      handlers := Without(handlers, h);
    }

    /** Calls a snapshot of the subscribers, in subscription order; returns whom it called. */
    method Trigger() returns (invoked: seq<HandlerId>)
      ensures invoked == handlers
    {
      invoked := handlers[..];
    }
  }
}

=== FILE: framing.dfy ===
/** The line framer of the socket's `data` handler: the buffer is cut after
    each newline, each cut piece is trimmed, and only pieces that start with
    `<` are handed to the XML decoder. */
module Framing {
  import opened Seqs

  const NEWLINE: char := '\n'
  const MARKER: char := '<'

  /** The characters `String.prototype.trim` removes: ECMAScript WhiteSpace
      (tab, vertical tab, form feed, space, no-break space, byte order mark and
      the space separators) and LineTerminator (line feed, carriage return,
      line separator, paragraph separator). */
  predicate IsSpace(c: char)
  {
    c == '\t' || c == '\n' || c == '\U{000B}' || c == '\U{000C}' || c == '\r' || c == ' '
    || c == '\U{00A0}' || c == '\U{1680}' || ('\U{2000}' <= c <= '\U{200A}')
    || c == '\U{2028}' || c == '\U{2029}' || c == '\U{202F}' || c == '\U{205F}'
    || c == '\U{3000}' || c == '\U{FEFF}'
  }

  /** `s` without its leading white space. */
  function TrimStart(s: string): string
    decreases |s|
  {
    if s != [] && IsSpace(s[0]) then TrimStart(s[1..]) else s
  }

  /** `s` without its trailing white space. */
  function TrimEnd(s: string): string
    decreases |s|
  {
    if s != [] && IsSpace(s[|s| - 1]) then TrimEnd(s[..|s| - 1]) else s
  }

  /** `TrimStart` drops exactly the leading white space: what it keeps is a
      suffix that does not start with white space, and all it drops is white space. */
  lemma {:induction false} TrimStartSpec(s: string)
    ensures var r := TrimStart(s);
      |r| <= |s| && r == s[|s| - |r|..]
      && (forall k :: 0 <= k < |s| - |r| ==> IsSpace(s[k]))
      && (r == [] || !IsSpace(r[0]))
    decreases |s|
  {
    if s != [] && IsSpace(s[0]) {
      TrimStartSpec(s[1..]);
      var r := TrimStart(s);
      assert r == TrimStart(s[1..]);
      forall k | 1 <= k < |s| - |r|
        ensures IsSpace(s[k])
      {
        assert s[k] == s[1..][k - 1];
      }
    }
  }

  /** `TrimEnd` drops exactly the trailing white space: what it keeps is a
      prefix that does not end with white space, and all it drops is white space. */
  lemma {:induction false} TrimEndSpec(s: string)
    ensures var r := TrimEnd(s);
      |r| <= |s| && r == s[..|r|]
      && (forall k :: |r| <= k < |s| ==> IsSpace(s[k]))
      && (r == [] || !IsSpace(r[|r| - 1]))
    decreases |s|
  {
    if s != [] && IsSpace(s[|s| - 1]) {
      TrimEndSpec(s[..|s| - 1]);
      var r := TrimEnd(s);
      assert r == TrimEnd(s[..|s| - 1]);
      forall k | |r| <= k < |s| - 1
        ensures IsSpace(s[k])
      {
        assert s[k] == s[..|s| - 1][k];
      }
    }
  }

  function Trim(s: string): string
  {
    TrimEnd(TrimStart(s))
  }

  /** `line.startsWith("<")`. */
  predicate IsFrame(line: string)
  {
    |line| > 0 && line[0] == MARKER
  }

  /** A piece cut from the buffer: it ends at its only newline. */
  predicate IsRawLine(line: string)
  {
    |line| > 0 && line[|line| - 1] == NEWLINE && forall j :: 0 <= j < |line| - 1 ==> line[j] != NEWLINE
  }

  /** The raw lines the framer cuts from `buf`, in order, and what stays
      buffered after them. */
  function SplitLines(buf: string): (seq<string>, string)
    decreases |buf|
  {
    var i := IndexOf(buf, NEWLINE);
    if i < 0 then ([], buf)
    else
      var tail := SplitLines(buf[i + 1..]);
      ([buf[..i + 1]] + tail.0, tail.1)
  }

  /** Nothing is lost or reordered: the cut lines followed by the remainder
      are the whole buffer. */
  lemma {:induction false} SplitLinesConcat(buf: string)
    ensures Concat(SplitLines(buf).0) + SplitLines(buf).1 == buf
    decreases |buf|
  {
    var i := IndexOf(buf, NEWLINE);
    if i >= 0 {
      var line, rest := buf[..i + 1], buf[i + 1..];
      var t := SplitLines(rest);
      SplitLinesStep(buf);
      SplitLinesConcat(rest);
      SliceJoin(buf, i + 1);
      ConcatStep(line, t.0, t.1, rest, buf);
    } else {
      assert SplitLines(buf) == ([], buf);
    }
  }

  lemma ConcatStep(line: string, parts: seq<string>, rest: string, tail: string, whole: string)
    requires Concat(parts) + rest == tail && line + tail == whole
    ensures Concat([line] + parts) + rest == whole
  {
    ConcatCons(line, parts);
    AppendAssoc(line, Concat(parts), rest);
  }

  /** What stays buffered holds no newline. */
  lemma {:induction false} SplitLinesRest(buf: string)
    ensures forall k :: 0 <= k < |SplitLines(buf).1| ==> SplitLines(buf).1[k] != NEWLINE
    decreases |buf|
  {
    var i := IndexOf(buf, NEWLINE);
    if i >= 0 {
      SplitLinesStep(buf);
      SplitLinesRest(buf[i + 1..]);
    } else {
      IndexOfFirst(buf, NEWLINE);
    }
  }

  /** Every cut line ends at its only newline. */
  lemma {:induction false} SplitLinesRaw(buf: string)
    ensures forall k :: 0 <= k < |SplitLines(buf).0| ==> IsRawLine(SplitLines(buf).0[k])
    decreases |buf|
  {
    var i := IndexOf(buf, NEWLINE);
    if i >= 0 {
      var line, tail := buf[..i + 1], SplitLines(buf[i + 1..]);
      SplitLinesStep(buf);
      SplitLinesRaw(buf[i + 1..]);
      IndexOfFirst(buf, NEWLINE);
      assert IsRawLine(line);
    }
  }

  /** What one raw line contributes to the decoder: its trimmed form when
      that starts with `<`, nothing otherwise. */
  function FrameOf(line: string): (f: seq<string>)
    ensures |f| <= 1
  {
    var t := Trim(line);
    if IsFrame(t) then [t] else []
  }

  /** The trimmed raw lines that reach the decoder. */
  function Frames(raw: seq<string>): seq<string>
    decreases |raw|
  {
    if raw == [] then [] else FrameOf(raw[0]) + Frames(raw[1..])
  }

  /** Only lines starting with `<` reach the decoder, at most one per raw line. */
  lemma {:induction false} FramesAreFrames(raw: seq<string>)
    ensures |Frames(raw)| <= |raw|
    ensures forall k :: 0 <= k < |Frames(raw)| ==> IsFrame(Frames(raw)[k])
    decreases |raw|
  {
    if raw != [] {
      var h, rest := FrameOf(raw[0]), Frames(raw[1..]);
      FramesAreFrames(raw[1..]);
      assert Frames(raw) == h + rest;
      assert forall k :: 0 <= k < |h| ==> IsFrame(h[k]);
    }
  }

  /** Frames of a concatenation are the frames of each part, in order. */
  lemma {:induction false} FramesAppend(x: seq<string>, y: seq<string>)
    ensures Frames(x + y) == Frames(x) + Frames(y)
    decreases |x|
  {
    if x == [] {
      assert x + y == y;
    } else {
      FramesStepAppend(x, y);
      FramesAppend(x[1..], y);
      AppendAssoc(FrameOf(x[0]), Frames(x[1..]), Frames(y));
    }
  }

  /** The first raw line of `x` is framed first in `x + y` as well. */
  lemma FramesStepAppend(x: seq<string>, y: seq<string>)
    requires x != []
    ensures Frames(x) == FrameOf(x[0]) + Frames(x[1..])
    ensures Frames(x + y) == FrameOf(x[0]) + Frames(x[1..] + y)
  {
    var xy := x + y;
    assert xy[0] == x[0];
    assert xy[1..] == x[1..] + y;
  }

  /** One turn of the framer: the first raw line is cut, the rest is framed later. */
  lemma SplitLinesStep(buf: string)
    requires IndexOf(buf, NEWLINE) >= 0
    ensures var i := IndexOf(buf, NEWLINE);
            SplitLines(buf) == ([buf[..i + 1]] + SplitLines(buf[i + 1..]).0, SplitLines(buf[i + 1..]).1)
  {
  }

  /** The first line of `a` is also the first line of `a + b`. */
  lemma SplitLinesStepAppend(a: string, b: string)
    requires IndexOf(a, NEWLINE) >= 0
    ensures var i := IndexOf(a, NEWLINE);
            SplitLines(a + b) == ([a[..i + 1]] + SplitLines(a[i + 1..] + b).0, SplitLines(a[i + 1..] + b).1)
  {
    IndexOfPrefix(a, b, NEWLINE);
    SplitLinesStep(a + b);
  }

  /** A line split across two deliveries: cutting `a`, then cutting what stayed
      buffered followed by `b`, gives the same lines, in the same order, and the
      same remainder as cutting `a + b` at once. */
  lemma {:induction false} SplitLinesInPieces(a: string, b: string)
    ensures SplitLines(a + b).0 == SplitLines(a).0 + SplitLines(SplitLines(a).1 + b).0
    ensures SplitLines(a + b).1 == SplitLines(SplitLines(a).1 + b).1
    decreases |a|
  {
    var i := IndexOf(a, NEWLINE);
    if i >= 0 {
      var line, t := a[..i + 1], SplitLines(a[i + 1..]);
      var u := SplitLines(t.1 + b);
      var v := SplitLines(a[i + 1..] + b);
      SplitLinesStep(a);
      SplitLinesStepAppend(a, b);
      SplitLinesInPieces(a[i + 1..], b);
      AppendAssoc([line], t.0, u.0);
    } else {
      assert SplitLines(a) == ([], a);
    }
  }

  /** The same, for what reaches the decoder. */
  lemma FramesInPieces(a: string, b: string)
    ensures Frames(SplitLines(a + b).0) == Frames(SplitLines(a).0) + Frames(SplitLines(SplitLines(a).1 + b).0)
  {
    SplitLinesInPieces(a, b);
    FramesAppend(SplitLines(a).0, SplitLines(SplitLines(a).1 + b).0);
  }
}

=== FILE: messages.dfy ===
/** The messages the client exchanges with the controller, as tagged values in
    place of the XML documents the `xml2js` builder and parser produce and
    consume, and the attribute list of a `controlDevice` request. */
module Messages {
  import opened Wrappers
  import opened Numbers
  import opened Devices

  /** Every control request carries this command identifier. */
  const COMMAND_ID: string := "cmd00000"

  /** `deviceList()` asks for the group "ALL", starting at 1, one entry. */
  const DEFAULT_START: int := 1
  const DEFAULT_COUNT: int := 1
  const DEFAULT_GROUP: string := "ALL"

  /** One attribute of a control request: `{"$": {"ID": id, "Value": value}}`. */
  datatype Setting = Setting(id: string, value: string)

  /** The outbound requests, one constructor per `Type`. */
  datatype Request =
    | GetTokenRequest
    | AuthTokenRequest(token: string)
    | DeviceListRequest(start: int, count: int, group: string)
    | DeviceStateRequest(duid: string)
    | DeviceControlRequest(commandId: string, duid: string, attrs: seq<Setting>)

  /** The `Status` (in an update) or `Device` (in a device-state reply)
      element: a device identifier and its `Attr` children. `attrs` is `None`
      when the element has no `Attr` child at all: the parser then gives it no
      `Attr` key, and `.Attr.map` on it throws. */
  datatype Status = Status(duid: string, attrs: Option<seq<Attr>>)

  /** A decoded inbound line.
      `DecodeError` is the parser's error; `Update` and `Response` are documents
      with that root element, carrying their `Type`, the first `Status` of an
      update, the `DeviceList` entries and the first `DeviceState` device of a
      response when present; `Unrecognised` is a document with neither root. */
  datatype Inbound =
    | DecodeError(error: string)
    | Update(kind: string, status: Option<Status>)
    | Response(kind: string, list: Option<seq<Descriptor>>, state: Option<Status>)
    | Unrecognised

  /** The options of `controlDevice`; every one may be absent. */
  datatype ControlOptions = ControlOptions(
    power: Option<string>,
    op: Option<string>,
    targetTemp: Option<int>,
    fanSpeed: Option<string>,
    fanMode: Option<string>)

  /** JavaScript truthiness of an optional string: present and not empty. */
  predicate TruthyText(v: Option<string>) { v.Some? && v.value != "" }

  /** JavaScript truthiness of an optional integer: present and not zero. */
  predicate TruthyNumber(v: Option<int>) { v.Some? && v.value != 0 }

  /** The value a control request asks attribute `id` to take, written out as
      the XML builder writes it, if the request mentions `id` at all. */
  function Requested(o: ControlOptions, id: string): Option<string>
  {
    if id == AC_FUN_POWER then (if TruthyText(o.power) then Some(o.power.value) else None)
    else if id == AC_FUN_OPMODE then (if TruthyText(o.op) then Some(o.op.value) else None)
    else if id == AC_FUN_TEMPSET then (if TruthyNumber(o.targetTemp) then Some(ToDecimal(o.targetTemp.value)) else None)
    else if id == AC_FUN_WINDLEVEL then (if TruthyText(o.fanSpeed) then Some(o.fanSpeed.value) else None)
    else if id == AC_FUN_FAN then (if TruthyText(o.fanMode) then Some(o.fanMode.value) else None)
    else None
  }

  /** The position of each controllable attribute in a control request. */
  function Rank(id: string): nat
  {
    if id == AC_FUN_POWER then 0
    else if id == AC_FUN_OPMODE then 1
    else if id == AC_FUN_TEMPSET then 2
    else if id == AC_FUN_WINDLEVEL then 3
    else if id == AC_FUN_FAN then 4
    else 5
  }

  /** The controllable attributes, in the order a control request lists them. */
  const ControlIds: seq<string> := [AC_FUN_POWER, AC_FUN_OPMODE, AC_FUN_TEMPSET, AC_FUN_WINDLEVEL, AC_FUN_FAN]

  /** One conditional `attrs.push` per identifier of `ids`, in order. */
  function Collect(o: ControlOptions, ids: seq<string>): seq<Setting>
    decreases |ids|
  {
    if ids == [] then []
    else
      var v := Requested(o, ids[0]);
      (if v.Some? then [Setting(ids[0], v.value)] else []) + Collect(o, ids[1..])
  }

  /** `Collect` pushes only identifiers of `ids`, each with its requested value. */
  lemma {:induction false} CollectSound(o: ControlOptions, ids: seq<string>)
    ensures forall i :: 0 <= i < |Collect(o, ids)| ==>
      Collect(o, ids)[i].id in ids && Requested(o, Collect(o, ids)[i].id) == Some(Collect(o, ids)[i].value)
    decreases |ids|
  {
    if ids != [] {
      var v := Requested(o, ids[0]);
      var h := if v.Some? then [Setting(ids[0], v.value)] else [];
      var rest := Collect(o, ids[1..]);
      CollectSound(o, ids[1..]);
      assert Collect(o, ids) == h + rest;
      assert forall i :: 0 <= i < |rest| ==> rest[i].id in ids;
    }
  }

  /** `Collect` pushes every identifier of `ids` that is requested. */
  lemma {:induction false} CollectComplete(o: ControlOptions, ids: seq<string>, id: string)
    requires id in ids && Requested(o, id).Some?
    ensures exists i :: 0 <= i < |Collect(o, ids)| && Collect(o, ids)[i].id == id
    decreases |ids|
  {
    var v := Requested(o, ids[0]);
    var h := if v.Some? then [Setting(ids[0], v.value)] else [];
    var rest := Collect(o, ids[1..]);
    var r := Collect(o, ids);
    assert r == h + rest;
    if id == ids[0] {
      assert r[0].id == id;
    } else {
      assert id in ids[1..];
      CollectComplete(o, ids[1..], id);
      var i :| 0 <= i < |rest| && rest[i].id == id;
      assert r[|h| + i] == rest[i];
    }
  }

  /** `Collect` keeps the order of `ids`. */
  lemma {:induction false} CollectOrdered(o: ControlOptions, ids: seq<string>)
    requires forall a, b :: 0 <= a < b < |ids| ==> Rank(ids[a]) < Rank(ids[b])
    ensures forall i, j :: 0 <= i < j < |Collect(o, ids)| ==> Rank(Collect(o, ids)[i].id) < Rank(Collect(o, ids)[j].id)
    decreases |ids|
  {
    if ids != [] {
      var v := Requested(o, ids[0]);
      var h := if v.Some? then [Setting(ids[0], v.value)] else [];
      var rest := Collect(o, ids[1..]);
      var r := Collect(o, ids);
      assert forall a, b :: 0 <= a < b < |ids[1..]| ==> Rank(ids[1..][a]) < Rank(ids[1..][b]) by {
        forall a, b | 0 <= a < b < |ids[1..]|
          ensures Rank(ids[1..][a]) < Rank(ids[1..][b])
        {
          assert ids[1..][a] == ids[a + 1] && ids[1..][b] == ids[b + 1];
        }
      }
      CollectOrdered(o, ids[1..]);
      CollectSound(o, ids[1..]);
      assert r == h + rest;
      forall j | 0 <= j < |rest|
        ensures Rank(ids[0]) < Rank(rest[j].id)
      {
        var b :| 0 <= b < |ids[1..]| && ids[1..][b] == rest[j].id;
        assert ids[1..][b] == ids[b + 1];
      }
    }
  }

  /** The attribute list `controlDevice` sends: exactly the requested
      attributes, each once, with the requested value, in the fixed order
      power, mode, set point, fan speed, fan. */
  function ControlAttrs(o: ControlOptions): (r: seq<Setting>)
    ensures forall i :: 0 <= i < |r| ==> Requested(o, r[i].id) == Some(r[i].value)
    ensures forall id :: Requested(o, id).Some? ==> exists i :: 0 <= i < |r| && r[i].id == id
    ensures forall i, j :: 0 <= i < j < |r| ==> Rank(r[i].id) < Rank(r[j].id)
  {
    CollectSound(o, ControlIds);
    forall id | Requested(o, id).Some?
      ensures exists i :: 0 <= i < |Collect(o, ControlIds)| && Collect(o, ControlIds)[i].id == id
    {
      CollectComplete(o, ControlIds, id);
    }
    CollectOrdered(o, ControlIds);
    assert forall a, b :: 0 <= a < b < |ControlIds| ==> Rank(ControlIds[a]) < Rank(ControlIds[b]);
    Collect(o, ControlIds)
  }

  /** The control request `controlDevice(duid, o)` sends. */
  function ControlRequest(duid: string, o: ControlOptions): (r: Request)
    ensures r.DeviceControlRequest? && r.commandId == COMMAND_ID && r.duid == duid
  {
    DeviceControlRequest(COMMAND_ID, duid, ControlAttrs(o))
  }

  /** A status report that repeats the settings of a request, attribute by attribute. */
  function Echo(r: seq<Setting>, kind: string): (a: seq<Attr>)
    ensures |a| == |r|
    ensures forall i :: 0 <= i < |r| ==> a[i].id == r[i].id && a[i].value == r[i].value
  {
    seq(|r|, i requires 0 <= i < |r| => Attr(r[i].id, kind, r[i].value))
  }

  /** A device that reports back the settings of a control request ends up
      with exactly the requested fields changed, to the requested values, and
      every other field as it was. */
  lemma ControlEcho(s: StateFields, o: ControlOptions, kind: string, id: string)
    requires id in StateIds
    ensures Get(Merge(s, Echo(ControlAttrs(o), kind)), id) ==
      match Requested(o, id)
      case None => Get(s, id)
      case Some(v) => Some(Stored(id, v))
  {
    var r := ControlAttrs(o);
    var a := Echo(r, kind);
    MergeGet(s, a, id);
    match LastIndex(a, id)
    case None =>
    case Some(j) =>
      assert Requested(o, id) == Some(r[j].value);
  }

  /** In particular the set point is set to a requested non-zero temperature
      and left alone when the request gives none or zero. */
  lemma ControlEchoTemperature(s: StateFields, o: ControlOptions, kind: string)
    ensures TruthyNumber(o.targetTemp) ==>
      Merge(s, Echo(ControlAttrs(o), kind)).targetTemp == Some(Finite(o.targetTemp.value))
    ensures !TruthyNumber(o.targetTemp) ==>
      Merge(s, Echo(ControlAttrs(o), kind)).targetTemp == s.targetTemp
  {
    ControlEcho(s, o, kind, AC_FUN_TEMPSET);
    if TruthyNumber(o.targetTemp) {
      ParseToDecimal(o.targetTemp.value);
    }
  }
}

=== FILE: numbers.dfy ===
/** The small part of JavaScript number semantics the client relies on:
    `Number(text)` on attribute values and the decimal rendering of integers. */
module Numbers {

  /** A JavaScript number as the client meets one: an integer, or NaN. */
  datatype JsNumber = Finite(n: int) | NaN

  /** `x - k`; NaN stays NaN. */
  function Subtract(x: JsNumber, k: int): JsNumber
  {
    match x
    case Finite(n) => Finite(n - k)
    case NaN => NaN
  }

  predicate IsDigit(c: char) { '0' <= c <= '9' }

  predicate AllDigits(s: string) { forall i :: 0 <= i < |s| ==> IsDigit(s[i]) }

  function DigitValue(c: char): nat
    requires IsDigit(c)
  {
    c as int - '0' as int
  }

  function DigitChar(d: nat): (c: char)
    requires d < 10
    ensures IsDigit(c) && DigitValue(c) == d
  {
    ('0' as int + d) as char
  }

  /** The value of a string of decimal digits, most significant first. */
  function DigitsValue(s: string): nat
    requires AllDigits(s)
    decreases |s|
  {
    if s == [] then 0 else DigitsValue(s[..|s| - 1]) * 10 + DigitValue(s[|s| - 1])
  }

  /** `Number(s)` for the integer forms: the empty string is 0, an optional
      sign followed by decimal digits is that integer, anything else is NaN. */
  function ParseNumber(s: string): JsNumber
  {
    if s == "" then Finite(0)
    else if (s[0] == '-' || s[0] == '+') && |s| > 1 && AllDigits(s[1..]) then
      var v: int := DigitsValue(s[1..]);
      Finite(if s[0] == '-' then -v else v)
    else if AllDigits(s) then Finite(DigitsValue(s))
    else NaN
  }

  /** Decimal digits of a natural number, without leading zeros. */
  function NatToDecimal(n: nat): (s: string)
    ensures |s| > 0 && AllDigits(s) && IsDigit(s[0])
    decreases n
  {
    if n < 10 then [DigitChar(n)] else NatToDecimal(n / 10) + [DigitChar(n % 10)]
  }

  /** How an integer-valued number is written out (`String(n)`). */
  function ToDecimal(n: int): string
  {
    if n < 0 then "-" + NatToDecimal(-n) else NatToDecimal(n)
  }

  lemma {:induction false} DigitsOfDecimal(n: nat)
    ensures DigitsValue(NatToDecimal(n)) == n
    decreases n
  {
    if n >= 10 {
      var s := NatToDecimal(n);
      assert s[..|s| - 1] == NatToDecimal(n / 10);
      DigitsOfDecimal(n / 10);
    }
  }

  /** Reading back a rendered integer gives the integer. */
  lemma ParseToDecimal(n: int)
    ensures ParseNumber(ToDecimal(n)) == Finite(n)
  {
    var s := ToDecimal(n);
    if n < 0 {
      assert s[1..] == NatToDecimal(-n);
      DigitsOfDecimal(-n);
    } else {
      DigitsOfDecimal(n);
    }
  }
}

=== FILE: seqs.dfy ===
/** Sequence helpers shared by the framer and the device registry. */
module Seqs {

  /** Position of the first occurrence of `x` in `s`, or -1 when there is none
      (the behaviour of JavaScript's `indexOf`). */
  function IndexOf<T(==)>(s: seq<T>, x: T): (i: int)
    ensures -1 <= i < |s|
    ensures i >= 0 ==> s[i] == x
    decreases |s|
  {
    if s == [] then -1
    else if s[0] == x then 0
    else
      var j := IndexOf(s[1..], x);
      if j < 0 then -1 else j + 1
  }

  /** `IndexOf` finds the first occurrence, and -1 means there is none. */
  lemma {:induction false} IndexOfFirst<T>(s: seq<T>, x: T)
    ensures forall k :: 0 <= k < |s| && (k < IndexOf(s, x) || IndexOf(s, x) < 0) ==> s[k] != x
    decreases |s|
  {
    if s != [] && s[0] != x {
      IndexOfFirst(s[1..], x);
      assert forall k :: 1 <= k < |s| ==> s[k] == s[1..][k - 1];
    }
  }

  /** Appending to a sequence does not move a first occurrence already
      present, nor change what comes up to it. */
  lemma IndexOfPrefix<T>(a: seq<T>, b: seq<T>, x: T)
    requires IndexOf(a, x) >= 0
    ensures var i := IndexOf(a, x);
      IndexOf(a + b, x) == i && (a + b)[..i + 1] == a[..i + 1] && (a + b)[i + 1..] == a[i + 1..] + b
  {
    var i := IndexOf(a, x);
    IndexOfFirst(a, x);
    IndexOfFirst(a + b, x);
    assert (a + b)[i] == x;
    assert (a + b)[..i + 1] == a[..i + 1];
    assert (a + b)[i + 1..] == a[i + 1..] + b;
  }

  /** The concatenation of a sequence of sequences. */
  function Concat<T>(parts: seq<seq<T>>): seq<T>
  {
    if parts == [] then [] else parts[0] + Concat(parts[1..])
  }

  /** Sequence concatenation is associative. */
  lemma AppendAssoc<T>(a: seq<T>, b: seq<T>, c: seq<T>)
    ensures a + (b + c) == (a + b) + c
  {
  }

  /** A sequence is its prefix followed by the matching suffix. */
  lemma SliceJoin<T>(s: seq<T>, n: nat)
    requires n <= |s|
    ensures s[..n] + s[n..] == s
  {
  }

  lemma ConcatCons<T>(x: seq<T>, rest: seq<seq<T>>)
    ensures Concat([x] + rest) == x + Concat(rest)
  {
    assert ([x] + rest)[1..] == rest;
  }
}

=== FILE: sessions.dfy ===
/** The protocol state of a `Connection` as a value, and what the socket's
    `data` handler does to it: the one-shot handshake flag, the single pending
    request slot, the device registry, the update subscribers and a log of
    what was resolved, rejected and announced. */
module Sessions {
  import opened Wrappers
  import opened Seqs
  import opened Devices
  import opened Events
  import opened Messages
  import opened Framing

  /** The update that tells the client the controller is ready. */
  const ACCOUNT_INVALIDATED: string := "InvalidateAccount"
  const GET_TOKEN: string := "GetToken"
  /** Prefix of the rejection of a device-state reply about an unknown device. */
  const UNKNOWN_DEVICE: string := "Unknown device: "

  /** The number of the `send` call whose resolve/reject pair fills the slot. */
  type Ticket = nat

  /** A registry entry: the device's identity and its six state fields. */
  datatype DeviceView = DeviceView(id: Descriptor, fields: StateFields)

  /** What the handler does beyond its own state: resolve the `connect`
      promise, call the pending resolve or reject, fire `DeviceUpdated` (the
      registry index and identifier of the device, the attributes, and the
      subscribers called). */
  datatype Effect =
    | ConnectResolved
    | RequestResolved(ticket: Ticket, reply: Inbound)
    | RequestRejected(ticket: Ticket, error: string)
    | DeviceUpdated(index: nat, duid: string, attrs: seq<Attr>, invoked: seq<HandlerId>)

  datatype Session = Session(
    invalidated: bool,
    pending: Option<Ticket>,
    registry: Option<seq<DeviceView>>,
    handlers: seq<HandlerId>,
    effects: seq<Effect>)

  /** How a request promise ends: resolved with a value, rejected with a
      reason, or never, when its continuation throws. */
  datatype Settled<T> = Resolved(value: T) | Rejected(reason: string) | NeverSettles

  function ViewIds(reg: seq<DeviceView>): seq<string>
  {
    seq(|reg|, i requires 0 <= i < |reg| => reg[i].id.duid)
  }

  /** `findDevice`: the index of the first registry entry with identifier `duid`. */
  function Find(reg: seq<DeviceView>, duid: string): (k: int)
    ensures -1 <= k < |reg|
    ensures k >= 0 ==> reg[k].id.duid == duid
    ensures forall j :: 0 <= j < |reg| && (j < k || k < 0) ==> reg[j].id.duid != duid
  {
    var ids := ViewIds(reg);
    IndexOfFirst(ids, duid);
    assert forall j :: 0 <= j < |reg| ==> ids[j] == reg[j].id.duid;
    IndexOf(ids, duid)
  }

  /** The registry `deviceList` builds: one entry per descriptor, all fields unset. */
  function FreshViews(descs: seq<Descriptor>): seq<DeviceView>
  {
    seq(|descs|, i requires 0 <= i < |descs| => DeviceView(descs[i], Unset))
  }

  function Log(s: Session, e: Effect): Session
  {
    s.(effects := s.effects + [e])
  }

  /** `if (this.resolve_current_request) this.resolve_current_request(m)`. */
  function Resolve(s: Session, m: Inbound): Session
  {
    if s.pending.Some? then Log(s, RequestResolved(s.pending.value, m)) else s
  }

  /** `if (this.reject_current_request) this.reject_current_request(error)`. */
  function Reject(s: Session, error: string): Session
  {
    if s.pending.Some? then Log(s, RequestRejected(s.pending.value, error)) else s
  }

  /** Device `k` merges the attributes of `st` and one `DeviceUpdated` fires. */
  function ApplyStatus(s: Session, k: nat, st: Status): (r: Session)
    requires s.registry.Some? && k < |s.registry.value| && st.attrs.Some?
    ensures r.registry.Some? && |r.registry.value| == |s.registry.value|
  {
    var reg := s.registry.value;
    s.(registry := Some(reg[k := reg[k].(fields := Merge(reg[k].fields, st.attrs.value))]),
       effects := s.effects + [DeviceUpdated(k, st.duid, st.attrs.value, s.handlers)])
  }

  /** `findDevice` has something to search and `Status[0]` exists. */
  predicate CanUpdate(s: Session, status: Option<Status>)
  {
    status.Some? && s.registry.Some?
  }

  /** The parse callback on one decoded line. `None` stands for a `TypeError`
      thrown out of the handler: an update that is neither the handshake nor a
      token reply, without a `Status` or before any device list was fetched,
      or one about a registered device whose `Status` has no `Attr` child. */
  function Receive(s: Session, m: Inbound): Option<Session>
  {
    match m
    case DecodeError(e) => Some(Reject(s, e))
    case Update(kind, status) =>
      if !s.invalidated && kind == ACCOUNT_INVALIDATED then
        Some(Log(s.(invalidated := true), ConnectResolved))
      else if kind == GET_TOKEN then Some(Resolve(s, m))
      else if !CanUpdate(s, status) then None
      else
        var k := Find(s.registry.value, status.value.duid);
        if k < 0 then Some(s)
        else if status.value.attrs.None? then None
        else Some(ApplyStatus(s, k, status.value))
    case Response(kind, _, _) =>
      if kind != GET_TOKEN then Some(Resolve(s, m)) else Some(s)
    case Unrecognised => Some(s)
  }

  /** The parse callback leaves the pending slot and the subscribers alone,
      adds at most one effect, keeps the registry's identities and sets the
      handshake flag exactly on an `InvalidateAccount` update. */
  lemma ReceiveFacts(s: Session, m: Inbound)
    ensures var r := Receive(s, m);
      r.Some? ==> r.value.pending == s.pending && r.value.handlers == s.handlers
    ensures var r := Receive(s, m);
      r.Some? ==> r.value.effects == s.effects
                  || (|r.value.effects| == |s.effects| + 1 && r.value.effects[..|s.effects|] == s.effects)
    ensures var r := Receive(s, m);
      r.Some? ==> r.value.invalidated == (s.invalidated || (m.Update? && m.kind == ACCOUNT_INVALIDATED))
    ensures var r := Receive(s, m);
      r.Some? && s.registry.Some? ==> r.value.registry.Some? && ViewIds(r.value.registry.value) == ViewIds(s.registry.value)
    ensures var r := Receive(s, m);
      r.Some? && s.registry.None? ==> r.value.registry.None?
  {
    if m.Update? && !(!s.invalidated && m.kind == ACCOUNT_INVALIDATED) && m.kind != GET_TOKEN && CanUpdate(s, m.status) {
      var reg, k := s.registry.value, Find(s.registry.value, m.status.value.duid);
      if k >= 0 && m.status.value.attrs.Some? {
        var r := ApplyStatus(s, k, m.status.value).registry.value;
        assert forall j :: 0 <= j < |reg| ==> r[j].id == reg[j].id;
        assert ViewIds(r) == ViewIds(reg);
      }
    }
  }

  /** The callbacks for a sequence of decoded lines, stopping at the first throw. */
  function ReceiveAll(s: Session, frames: seq<string>, decode: string -> Inbound): Option<Session>
    decreases |frames|
  {
    if frames == [] then Some(s)
    else
      match Receive(s, decode(frames[0]))
      case None => None
      case Some(t) => ReceiveAll(t, frames[1..], decode)
  }

  /** The `while` loop of the `data` handler on buffer `buf`: what stays
      buffered, the new state, and whether the loop ran to its end (false when
      a callback threw, leaving the lines after the failing one buffered). */
  function Drain(buf: string, s: Session, decode: string -> Inbound): (string, Session, bool)
    decreases |buf|
  {
    var i := IndexOf(buf, NEWLINE);
    if i < 0 then (buf, s, true)
    else
      var line := Trim(buf[..i + 1]);
      var rest := buf[i + 1..];
      if !IsFrame(line) then Drain(rest, s, decode)
      else
        match Receive(s, decode(line))
        case None => (rest, s, false)
        case Some(t) => Drain(rest, t, decode)
  }

  /** The `deviceState` continuation on the reply to its request: the device
      the reply names is merged, one `DeviceUpdated` fires and the request
      resolves with that device's index; a device the registry lacks rejects,
      naming the identifier from the reply; a reply without a device, with no
      device list fetched, or naming a registered device but carrying no `Attr`
      child, throws and the promise never settles. */
  function AnswerDeviceState(s: Session, reply: Inbound): (r: (Session, Settled<nat>))
    ensures r.1.Resolved? ==> s.registry.Some? && r.1.value < |s.registry.value|
    ensures r.1.Resolved? ==>
              reply.Response? && reply.state.Some? && r.1.value == Find(s.registry.value, reply.state.value.duid)
    ensures !r.1.Resolved? ==> r.0 == s
  {
    if !reply.Response? || reply.state.None? || s.registry.None? then (s, NeverSettles)
    else
      var st := reply.state.value;
      var k := Find(s.registry.value, st.duid);
      if k < 0 then (s, Rejected(UNKNOWN_DEVICE + st.duid))
      else if st.attrs.None? then (s, NeverSettles)
      else (ApplyStatus(s, k, st), Resolved(k))
  }

  /** The `deviceList` continuation: the registry the reply describes, or
      `None` when the reply holds no device list and the continuation throws. */
  function AnswerDeviceList(s: Session, reply: Inbound): (r: Option<Session>)
    ensures r.Some? ==> r.value.registry.Some? && r.value.effects == s.effects
  {
    if reply.Response? && reply.list.Some? then Some(s.(registry := Some(FreshViews(reply.list.value))))
    else None
  }

  /** The number of times the `connect` promise was resolved. */
  function Handshakes(effects: seq<Effect>): nat
    decreases |effects|
  {
    if effects == [] then 0
    else Handshakes(effects[..|effects| - 1]) + (if effects[|effects| - 1].ConnectResolved? then 1 else 0)
  }

  // ---------------------------------------------------------------------------
  // Routing

  /** Where each decoded line goes: a parse error to the pending reject, a
      token update and any response other than a token response to the pending
      resolve, a token response and an unrecognised document nowhere. */
  lemma Routing(s: Session, m: Inbound)
    ensures m.DecodeError? ==> Receive(s, m) == Some(Reject(s, m.error))
    ensures m.Update? && m.kind == GET_TOKEN ==> Receive(s, m) == Some(Resolve(s, m))
    ensures m.Response? && m.kind != GET_TOKEN ==> Receive(s, m) == Some(Resolve(s, m))
    ensures m.Response? && m.kind == GET_TOKEN ==> Receive(s, m) == Some(s)
    ensures m.Unrecognised? ==> Receive(s, m) == Some(s)
  {
  }

  /** The first `InvalidateAccount` update completes the handshake: the flag
      is set and `connect` resolves, nothing else happens. */
  lemma Handshake(s: Session, status: Option<Status>)
    requires !s.invalidated
    ensures Receive(s, Update(ACCOUNT_INVALIDATED, status)) ==
      Some(s.(invalidated := true, effects := s.effects + [ConnectResolved]))
  {
  }

  /** Once the flag is set, an `InvalidateAccount` update is handled exactly
      like any other unsolicited update. */
  lemma LateInvalidate(s: Session, status: Option<Status>, kind: string)
    requires s.invalidated && kind != GET_TOKEN
    ensures Receive(s, Update(ACCOUNT_INVALIDATED, status)) == Receive(s, Update(kind, status))
  {
  }

  /** An unsolicited update about a registered device merges its attributes
      into the first entry with that identifier and into no other, and fires
      exactly one `DeviceUpdated` to the current subscribers; an update about
      an unknown device changes nothing; an update about a registered device
      whose `Status` has no `Attr` child throws before anything changes. */
  lemma UnsolicitedUpdate(s: Session, kind: string, st: Status)
    requires s.invalidated || kind != ACCOUNT_INVALIDATED
    requires kind != GET_TOKEN && s.registry.Some?
    ensures var reg, k := s.registry.value, Find(s.registry.value, st.duid);
      k >= 0 && st.attrs.Some? ==> Receive(s, Update(kind, Some(st))) == Some(s.(
        registry := Some(reg[k := DeviceView(reg[k].id, Merge(reg[k].fields, st.attrs.value))]),
        effects := s.effects + [DeviceUpdated(k, st.duid, st.attrs.value, s.handlers)]))
    ensures var reg, k, r := s.registry.value, Find(s.registry.value, st.duid), Receive(s, Update(kind, Some(st)));
      r.Some? ==> forall j :: 0 <= j < |reg| && j != k ==> r.value.registry.value[j] == reg[j]
    ensures Find(s.registry.value, st.duid) >= 0 && st.attrs.None? ==> Receive(s, Update(kind, Some(st))).None?
    ensures Find(s.registry.value, st.duid) < 0 ==> Receive(s, Update(kind, Some(st))) == Some(s)
  {
  }

  /** A device-state reply updates the registry exactly as an unsolicited
      update about the same device would. */
  lemma DeviceStateLikeUpdate(s: Session, kind: string, list: Option<seq<Descriptor>>, st: Status, other: string)
    requires s.registry.Some?
    requires s.invalidated || other != ACCOUNT_INVALIDATED
    requires other != GET_TOKEN
    ensures var r := AnswerDeviceState(s, Response(kind, list, Some(st)));
      Receive(s, Update(other, Some(st))) == if r.1.NeverSettles? then None else Some(r.0)
    ensures AnswerDeviceState(s, Response(kind, list, Some(st))).1.Rejected? <==>
              Find(s.registry.value, st.duid) < 0
    ensures AnswerDeviceState(s, Response(kind, list, Some(st))).1.NeverSettles? <==>
              Find(s.registry.value, st.duid) >= 0 && st.attrs.None?
  {
  }

  /** The rejection names the device of the reply, whichever device was asked about. */
  lemma UnknownDeviceReason(s: Session, kind: string, list: Option<seq<Descriptor>>, st: Status)
    requires s.registry.Some? && Find(s.registry.value, st.duid) < 0
    ensures AnswerDeviceState(s, Response(kind, list, Some(st))) == (s, Rejected("Unknown device: " + st.duid))
  {
  }

  /** A device list replaces the registry by fresh entries, one per
      descriptor, in the reply's order, with all six fields unset. */
  lemma DeviceListRebuilds(s: Session, kind: string, descs: seq<Descriptor>, st: Option<Status>)
    ensures var r := AnswerDeviceList(s, Response(kind, Some(descs), st));
      r.Some? && |r.value.registry.value| == |descs|
      && (forall i :: 0 <= i < |descs| ==> r.value.registry.value[i] == DeviceView(descs[i], Unset))
      && r.value.pending == s.pending && r.value.invalidated == s.invalidated
  {
  }

  // ---------------------------------------------------------------------------
  // Sequences of lines

  /** Inbound traffic never touches the pending slot: after it completes, it
      stays filled with the same resolve/reject pair. */
  lemma {:induction false} ReceiveAllKeepsSlot(s: Session, frames: seq<string>, decode: string -> Inbound)
    requires ReceiveAll(s, frames, decode).Some?
    ensures ReceiveAll(s, frames, decode).value.pending == s.pending
    ensures ReceiveAll(s, frames, decode).value.handlers == s.handlers
    decreases |frames|
  {
    if frames != [] {
      ReceiveFacts(s, decode(frames[0]));
      ReceiveAllKeepsSlot(Receive(s, decode(frames[0])).value, frames[1..], decode);
    }
  }

  lemma HandshakesAppend(effects: seq<Effect>, e: Effect)
    ensures Handshakes(effects + [e]) == Handshakes(effects) + (if e.ConnectResolved? then 1 else 0)
  {
    assert (effects + [e])[..|effects|] == effects;
  }

  /** One line resolves `connect` exactly when it sets the handshake flag. */
  lemma ReceiveHandshakes(s: Session, m: Inbound)
    requires Receive(s, m).Some?
    ensures var t := Receive(s, m).value;
      Handshakes(t.effects) == Handshakes(s.effects) + (if t.invalidated && !s.invalidated then 1 else 0)
  {
    var t := Receive(s, m).value;
    ReceiveFacts(s, m);
    if t.effects != s.effects {
      var e := t.effects[|s.effects|];
      assert t.effects == s.effects + [e];
      HandshakesAppend(s.effects, e);
    }
  }

  /** Over any run of frames whose callbacks all return, `connect` resolves
      at most once: exactly once if the
      flag was clear and got set, never otherwise, and the flag is never cleared. */
  lemma {:induction false} HandshakeOnce(s: Session, frames: seq<string>, decode: string -> Inbound)
    requires ReceiveAll(s, frames, decode).Some?
    ensures var t := ReceiveAll(s, frames, decode).value;
      (s.invalidated ==> t.invalidated)
      && Handshakes(t.effects) == Handshakes(s.effects) + (if t.invalidated && !s.invalidated then 1 else 0)
    decreases |frames|
  {
    if frames != [] {
      var m := decode(frames[0]);
      ReceiveHandshakes(s, m);
      ReceiveFacts(s, m);
      HandshakeOnce(Receive(s, m).value, frames[1..], decode);
    }
  }

  // ---------------------------------------------------------------------------
  // The data handler's loop

  /** One turn of the loop, one case at a time: the first raw line `line` is
      cut off, leaving `rest`, and decoded only if it is a frame. */
  lemma DrainTurn(buf: string, s: Session, decode: string -> Inbound, line: string, rest: string)
    requires IndexOf(buf, NEWLINE) >= 0
    requires line == Trim(buf[..IndexOf(buf, NEWLINE) + 1]) && rest == buf[IndexOf(buf, NEWLINE) + 1..]
    ensures !IsFrame(line) ==> Drain(buf, s, decode) == Drain(rest, s, decode)
    ensures IsFrame(line) && Receive(s, decode(line)).None? ==> Drain(buf, s, decode) == (rest, s, false)
    ensures IsFrame(line) && Receive(s, decode(line)).Some? ==>
      Drain(buf, s, decode) == Drain(rest, Receive(s, decode(line)).value, decode)
  {
  }

  /** Whatever arrives in the buffer, including a run that stops at a callback
      that throws, the loop resolves `connect` at most once: exactly once if
      the flag was clear and got set, never otherwise, and it never clears the flag. */
  lemma {:induction false} DrainHandshakes(buf: string, s: Session, decode: string -> Inbound)
    ensures var t := Drain(buf, s, decode).1;
      (s.invalidated ==> t.invalidated)
      && Handshakes(t.effects) == Handshakes(s.effects) + (if t.invalidated && !s.invalidated then 1 else 0)
    decreases |buf|
  {
    var i := IndexOf(buf, NEWLINE);
    if i >= 0 {
      var line, rest := Trim(buf[..i + 1]), buf[i + 1..];
      DrainTurn(buf, s, decode, line, rest);
      if !IsFrame(line) {
        DrainHandshakes(rest, s, decode);
      } else if Receive(s, decode(line)).Some? {
        var u := Receive(s, decode(line)).value;
        ReceiveHandshakes(s, decode(line));
        ReceiveFacts(s, decode(line));
        DrainHandshakes(rest, u, decode);
      }
    }
  }

  /** One turn of the loop takes buffer `buf` and state `s` to buffer `rest`
      and state `t`: the first raw line is cut off and, when it is a frame,
      its callback either returns `t` or throws (`ok` false, nothing changed). */
  predicate Turn(buf: string, s: Session, decode: string -> Inbound, rest: string, t: Session, ok: bool)
  {
    var i := IndexOf(buf, NEWLINE);
    var line := Trim(buf[..i + 1]);
    i >= 0 && rest == buf[i + 1..]
    && (!IsFrame(line) ==> t == s && ok)
    && (IsFrame(line) ==> Receive(s, decode(line)) == (if ok then Some(t) else None) && (!ok ==> t == s))
  }

  /** A turn keeps what the loop produces, or is where it stops. */
  lemma TurnDrain(buf: string, s: Session, decode: string -> Inbound, rest: string, t: Session, ok: bool)
    requires Turn(buf, s, decode, rest, t, ok)
    ensures |rest| < |buf|
    ensures ok ==> Drain(rest, t, decode) == Drain(buf, s, decode)
    ensures !ok ==> (rest, t, false) == Drain(buf, s, decode)
  {
    var i := IndexOf(buf, NEWLINE);
    DrainTurn(buf, s, decode, Trim(buf[..i + 1]), rest);
  }

  /** The loop decodes exactly the frames of the raw lines, in order: it runs
      to its end exactly when the callbacks for those frames all return, and
      then it leaves exactly the unterminated remainder buffered. */
  lemma {:induction false} DrainDispatchesFrames(buf: string, s: Session, decode: string -> Inbound)
    ensures Drain(buf, s, decode).2 <==> ReceiveAll(s, Frames(SplitLines(buf).0), decode).Some?
    ensures Drain(buf, s, decode).2 ==>
      Drain(buf, s, decode).0 == SplitLines(buf).1
      && Some(Drain(buf, s, decode).1) == ReceiveAll(s, Frames(SplitLines(buf).0), decode)
    decreases |buf|, 1
  {
    var i := IndexOf(buf, NEWLINE);
    if i < 0 {
      assert SplitLines(buf) == ([], buf);
    } else if IsFrame(Trim(buf[..i + 1])) {
      DrainDispatchesFrame(buf, s, decode);
    } else {
      DrainDispatchesSkip(buf, s, decode);
    }
  }

  /** `DrainDispatchesFrames` when the first raw line is not a frame. */
  lemma {:induction false} DrainDispatchesSkip(buf: string, s: Session, decode: string -> Inbound)
    requires IndexOf(buf, NEWLINE) >= 0 && !IsFrame(Trim(buf[..IndexOf(buf, NEWLINE) + 1]))
    ensures Drain(buf, s, decode).2 <==> ReceiveAll(s, Frames(SplitLines(buf).0), decode).Some?
    ensures Drain(buf, s, decode).2 ==>
      Drain(buf, s, decode).0 == SplitLines(buf).1
      && Some(Drain(buf, s, decode).1) == ReceiveAll(s, Frames(SplitLines(buf).0), decode)
    decreases |buf|, 0
  {
    var i := IndexOf(buf, NEWLINE);
    var rest := buf[i + 1..];
    var fs := Frames(SplitLines(rest).0);
    FramesSplitStep(buf);
    assert FrameOf(buf[..i + 1]) == [];
    assert Frames(SplitLines(buf).0) == [] + fs == fs;
    DrainTurn(buf, s, decode, Trim(buf[..i + 1]), rest);
    DrainDispatchesFrames(rest, s, decode);
  }

  /** `DrainDispatchesFrames` when the first raw line is a frame. */
  lemma {:induction false} DrainDispatchesFrame(buf: string, s: Session, decode: string -> Inbound)
    requires IndexOf(buf, NEWLINE) >= 0 && IsFrame(Trim(buf[..IndexOf(buf, NEWLINE) + 1]))
    ensures Drain(buf, s, decode).2 <==> ReceiveAll(s, Frames(SplitLines(buf).0), decode).Some?
    ensures Drain(buf, s, decode).2 ==>
      Drain(buf, s, decode).0 == SplitLines(buf).1
      && Some(Drain(buf, s, decode).1) == ReceiveAll(s, Frames(SplitLines(buf).0), decode)
    decreases |buf|, 0
  {
    var i := IndexOf(buf, NEWLINE);
    var line, rest := Trim(buf[..i + 1]), buf[i + 1..];
    FramesSplitStep(buf);
    assert FrameOf(buf[..i + 1]) == [line];
    ReceiveAllCons(s, line, Frames(SplitLines(rest).0), decode);
    DrainTurn(buf, s, decode, line, rest);
    match Receive(s, decode(line))
    case None =>
    case Some(u) =>
      DrainDispatchesFrames(rest, u, decode);
  }

  /** Cutting the first raw line off a buffer: its frame comes first, the
      frames of the rest follow, and the remainder is the rest's remainder. */
  lemma FramesSplitStep(buf: string)
    requires IndexOf(buf, NEWLINE) >= 0
    ensures var i := IndexOf(buf, NEWLINE);
      Frames(SplitLines(buf).0) == FrameOf(buf[..i + 1]) + Frames(SplitLines(buf[i + 1..]).0)
      && SplitLines(buf).1 == SplitLines(buf[i + 1..]).1
  {
    var i := IndexOf(buf, NEWLINE);
    var raw := [buf[..i + 1]] + SplitLines(buf[i + 1..]).0;
    SplitLinesStep(buf);
    assert raw[0] == buf[..i + 1] && raw[1..] == SplitLines(buf[i + 1..]).0;
  }

  /** The callbacks for a first frame and then the others. */
  lemma ReceiveAllCons(s: Session, f: string, fs: seq<string>, decode: string -> Inbound)
    ensures ReceiveAll(s, [f] + fs, decode) ==
      match Receive(s, decode(f))
      case None => None
      case Some(t) => ReceiveAll(t, fs, decode)
  {
    assert ([f] + fs)[0] == f && ([f] + fs)[1..] == fs;
  }

  /** After a run to the end, the buffer holds no newline, and the raw lines
      taken out followed by what is left are exactly the buffer. */
  lemma DrainLeavesRemainder(buf: string, s: Session, decode: string -> Inbound)
    requires Drain(buf, s, decode).2
    ensures forall k :: 0 <= k < |Drain(buf, s, decode).0| ==> Drain(buf, s, decode).0[k] != NEWLINE
    ensures Concat(SplitLines(buf).0) + Drain(buf, s, decode).0 == buf
  {
    DrainDispatchesFrames(buf, s, decode);
    SplitLinesRest(buf);
    SplitLinesConcat(buf);
  }

  /** Two deliveries do what one delivery of both does: if handling `a` ran
      to its end, handling what it left buffered followed by `b` gives the
      same buffer, state and outcome as handling `a + b`; if it stopped, the
      handler for `a + b` stops at the same place. */
  lemma {:induction false} DrainInPieces(a: string, b: string, s: Session, decode: string -> Inbound)
    ensures var (rest, t, ok) := Drain(a, s, decode);
      Drain(a + b, s, decode) == if ok then Drain(rest + b, t, decode) else (rest + b, t, false)
    decreases |a|
  {
    var i := IndexOf(a, NEWLINE);
    if i < 0 {
      assert Drain(a, s, decode) == (a, s, true);
    } else {
      var line, rest := Trim(a[..i + 1]), a[i + 1..];
      IndexOfPrefix(a, b, NEWLINE);
      DrainTurn(a, s, decode, line, rest);
      DrainTurn(a + b, s, decode, line, rest + b);
      if !IsFrame(line) {
        DrainInPieces(rest, b, s, decode);
      } else {
        match Receive(s, decode(line))
        case None =>
        case Some(u) =>
          DrainInPieces(rest, b, u, decode);
      }
    }
  }
}

=== FILE: wrappers.dfy ===
/** Optional values, standing for the source's `undefined`-able fields. */
module Wrappers {
  datatype Option<+T> = None | Some(value: T)
}
